=== FILE: README.md ===
# Evince job scheduler in Dafny

This project models the job scheduler of Evince's shell, `ev-job-queue.c`.
The scheduler keeps ten FIFO queues of jobs:

- eight worker queues, drained by one render thread: render high and low,
  thumbnail high and low, links, load, fonts and print;
- two asynchronous render queues, high and low, drained on the main thread.

A submitted job goes to the queue that `find_queue` picks from its class,
its asynchronous flag and the priority.

- The worker always takes the head of the first non-empty queue on a fixed
  ladder: render-high, thumbnail-high, render-low, links, load,
  thumbnail-low, fonts, print.
- Asynchronous render jobs run one at a time. `async_rendering` says one is
  running, and its "finished" signal starts the next one.
- Jobs can be cancelled while still queued (`ev_job_queue_remove_job`).
- Render and thumbnail jobs can also be moved between their high and low
  tiers (`ev_job_queue_update_job`).

The model is functional. One `State` value holds:

- the ten queues;
- the `async_rendering` flag;
- the job whose "finished" signal is currently wired to `job_finished_cb`;
- the worker jobs whose completion idle callback is still waiting on the
  main loop;
- the multiset of references the scheduler holds, one per `g_object_ref` it
  has not yet matched with a `g_object_unref`.

Each entry point of the scheduler is a function from state to state.

Modules:

- `Jobs`: job kinds, priorities, and the classes of jobs each fatal
  assertion lets through.
- `Fifo`: the GQueue operations used (push at the tail, pop the head,
  find-and-delete the first occurrence).
- `JobQueue`: the ten queues and every scheduler operation.
- `Invariants`: the state invariant and its preservation by every entry
  point, reference accounting, and the idempotence of cancel and
  reprioritise.
- `Scenarios`: concrete runs from start-up.
- `Signals`: the asynchronous path alone, with the connected "finished"
  handlers counted, as the code wires them and as evidently intended (see
  "## Findings"), with lemmas showing that the main model's submission
  and completion match the intended wiring.

The state invariant `Invariants.Valid` is a conjunction of four facts:

- every queued job sits in a queue meant for it;
- the busy flag is raised exactly when an asynchronous render job is in
  flight;
- while the flag is down the asynchronous queues are empty;
- the references held are exactly one per queued, pending or in-flight job.

`Invariants.Reachable` shows that the invariant holds after any sequence of
submissions, reprioritisations, cancellations, worker turns, idle
notifications and completions, starting from `ev_job_queue_init`.

## Model

| member | source | states |
|---|---|---|
| Fifo.Remove | shell/ev-job-queue.c:30-39 | The job is reported found exactly when it is in the queue. The first occurrence is deleted and every other element keeps its order; the queue loses exactly one copy of the job. When the job is absent the queue is unchanged. |
| Fifo.RemoveUndoesPush | shell/ev-job-queue.c:27-53 | Deleting a job that was just pushed, and was not queued before, gives back the queue as it was. |
| Fifo.PushThenPop | shell/ev-job-queue.c:63-70 | Queues are first-in first-out. Appending at the tail never changes which job the next pop returns, unless the queue was empty. |
| Fifo.RemoveOnceOnly | shell/ev-job-queue.c:27-40 | A job queued once is found by the first removal and not by a second one. |
| JobQueue.Init | shell/ev-job-queue.c:294-315 | Start-up: all ten queues are empty, nothing runs, nothing is pending and no reference is held. |
| JobQueue.FindQueue | shell/ev-job-queue.c:317-356 | The chosen queue holds the job's kind and asynchronous mode. For render and thumbnail jobs the tier matches the priority. |
| JobQueue.FindQueueExact | shell/ev-job-queue.c:317-356 | Classification is exclusive: `find_queue`'s answer is the only queue that accepts the job at that priority. |
| JobQueue.ClassifiableExactly | shell/ev-job-queue.c:317-356 | Classification is total on exactly the jobs some queue accepts. Every other job (an asynchronous non-render job, an unknown class) reaches the failed assertion. |
| JobQueue.PriorityIgnoredForOneTierKinds | shell/ev-job-queue.c:339-351 | For load, links, fonts and print jobs the priority does not change the queue. |
| JobQueue.NoJobsAvailable | shell/ev-job-queue.c:215-226 | True exactly when all eight worker queues are empty. The asynchronous queues are not consulted. |
| JobQueue.TryPop | shell/ev-job-queue.c:171-173 | Popping an empty queue yields nothing and changes nothing. Otherwise it yields the head and that queue loses exactly its head. |
| JobQueue.SearchForJobs | shell/ev-job-queue.c:166-204 | The search yields nothing exactly when no worker job is available, and then it leaves the queues alone. |
| JobQueue.SearchFollowsLadder | shell/ev-job-queue.c:148-204 | The priority ladder: when a queue is the highest non-empty worker queue in the documented order, the search returns its head. That queue loses its head and no other queue changes. |
| JobQueue.FirstNonEmptyExists | shell/ev-job-queue.c:148-204 | Whenever a worker job is available, exactly one queue is the highest non-empty one on the ladder. |
| JobQueue.SearchYieldsWorkerJob | shell/ev-job-queue.c:166-204 | From well-placed queues the worker never pops an asynchronous job, and the queues stay well placed. |
| JobQueue.Enqueue | shell/ev-job-queue.c:48-70 | Submission appends the job at the tail of one queue, leaves the other nine as they were, and takes one reference. |
| JobQueue.RemoveFromQueue | shell/ev-job-queue.c:27-46 | Succeeds exactly when the job is in the queue, and then deletes its first occurrence and releases one reference. On failure nothing changes. |
| JobQueue.HandleJob | shell/ev-job-queue.c:111-146 | Takes a reference. An asynchronous job raises the busy flag and becomes the job whose "finished" is wired. A worker job is appended to the pending idle notifications. The queues are untouched. |
| JobQueue.RunNext | shell/ev-job-queue.c:269-285 | Starts the head of the high asynchronous queue, else the head of the low one. Only that queue changes, and the queue's reference becomes the running job's. With both queues empty nothing changes. |
| JobQueue.JobFinished | shell/ev-job-queue.c:95-101 | Completion of the running asynchronous job releases its reference and starts the next asynchronous job, high queue first. That job leaves the head of its queue and no other queue changes. The busy flag stays up exactly when there was one. Completion of any other job changes nothing. |
| JobQueue.NotifyFinished | shell/ev-job-queue.c:80-86 | The oldest pending completion is announced and the idle callback's reference is released. |
| JobQueue.WorkerStep | shell/ev-job-queue.c:239-261 | A worker turn runs a job exactly when one is available. It pops what the ladder selects, schedules its completion, and holds no extra reference afterwards. With nothing available the turn changes nothing. |
| JobQueue.WorkerFollowsLadder | shell/ev-job-queue.c:239-261 | The worker runs the head of the highest-priority non-empty worker queue. Only that queue changes, and the job joins the pending completions. |
| JobQueue.NoSkip | shell/ev-job-queue.c:148-204 | Strict priority: while any worker queue is non-empty, a worker turn leaves every lower-priority worker queue untouched. |
| JobQueue.AddJob | shell/ev-job-queue.c:358-378 | A worker job, or an asynchronous job while one is already running, is appended to `find_queue`'s queue and nothing else changes. An asynchronous job submitted while idle starts a job at once. When nothing else was waiting, that job is the submitted one, and it leaves its queue again, so the queues end as they began. Either way exactly one reference is taken. |
| JobQueue.StartsAtOnce | shell/ev-job-queue.c:270-285 | An asynchronous job appended to an idle dispatcher with both asynchronous queues empty is the job run_next starts, and every queue ends as it was before the append. |
| JobQueue.MoveJob | shell/ev-job-queue.c:380-414 | Succeeds exactly when the job is in the source queue. Its first occurrence leaves that queue and the job is appended to the target. Other queues, the queued jobs as a whole and the references are unchanged. On failure nothing changes. |
| JobQueue.UpdateJob | shell/ev-job-queue.c:416-459 | Succeeds exactly when the job sits in the tier opposite to the requested priority, and then moves it to the tail of the requested tier. Any other queue is untouched, and so are the asynchronous queues for a worker job. |
| JobQueue.RemoveJob | shell/ev-job-queue.c:461-500 | Succeeds exactly when the job sits in a queue meant for it. The high tier is searched first. When the job is there, its first occurrence leaves the high tier and the low tier is untouched. Otherwise its first occurrence leaves the low tier, the rest of which keeps its order. One reference goes. Queues not meant for the job are never touched. On failure nothing changes. |
| Invariants.InitValid | shell/ev-job-queue.c:294-315 | The start-up state satisfies the invariant. |
| Invariants.AddJobValid | shell/ev-job-queue.c:358-378 | Submission keeps the invariant. An asynchronous job submitted while idle is itself the one put in flight, and the queues are left as they were. |
| Invariants.RunNextValid | shell/ev-job-queue.c:269-285 | Dispatching from an idle state keeps the invariant. The queue's reference is handed to the in-flight slot. |
| Invariants.JobFinishedValid | shell/ev-job-queue.c:95-101 | Completion keeps the invariant. |
| Invariants.WorkerStepValid | shell/ev-job-queue.c:239-261 | A worker turn keeps the invariant. The queue's reference is handed to the pending completion. |
| Invariants.NotifyFinishedValid | shell/ev-job-queue.c:139-145 | Delivering a worker job's completion keeps the invariant. |
| Invariants.RemoveJobValid | shell/ev-job-queue.c:461-500 | Cancellation keeps the invariant. |
| Invariants.UpdateJobValid | shell/ev-job-queue.c:416-459 | Reprioritisation keeps the invariant. |
| Invariants.CancelIdempotent | shell/ev-job-queue.c:461-500 | For a job queued once, the first cancel succeeds. A second cancel fails and changes nothing. |
| Invariants.SubmitThenCancel | shell/ev-job-queue.c:358-500 | Submitting a worker job that was not queued and then cancelling it restores the scheduler exactly. |
| Invariants.UpdateToSameTierFails | shell/ev-job-queue.c:416-459 | Asking for the tier a job queued once already sits in fails and changes nothing. |
| Invariants.UpdateOnce | shell/ev-job-queue.c:416-459 | After a successful reprioritisation of a job queued once, repeating the same request fails. |
| Invariants.Run | shell/ev-job-queue.c:358-500 | Any sequence of entry-point calls that avoids the fatal assertions, started from a valid state, ends in a valid state. |
| Invariants.Reachable | shell/ev-job-queue.c:19-23 | From start-up, at most one asynchronous render job is in flight, and the busy flag says whether one is. The asynchronous queues are empty while idle, and the references held are exactly one per queued, pending or running job. |
| Signals.Start | shell/ev-job-queue.c:111-121 | handle_job on an asynchronous job raises the flag, connects one more handler and puts the job to work. The queues and every reference count are left as they were, because handle_job's reference and run_next's release cancel out. |
| Signals.StartNext | shell/ev-job-queue.c:270-285 | run_next starts the head of the high queue, else the head of the low queue, removing it from that queue; with both queues empty nothing changes. |
| Signals.Submit | shell/ev-job-queue.c:358-378 | An asynchronous submission takes one reference to the job and to no other. While a job is rendering, the job joins the tail of its tier's queue, the flag stays up, and nothing starts or is connected. While idle, a job is started, so the flag ends up. From idle with empty queues, the submitted job itself starts with one handler connected. |
| Signals.Callbacks | shell/ev-job-queue.c:95-101 | Each of the `n` handler runs releases one reference to the finished job, so `n` runs release `n`. |
| Signals.FinishAsWritten | shell/ev-job-queue.c:95-101 | As the code wires it, a job's completion runs job_finished_cb once per connected handler, releasing one reference per handler. With no handler connected it only ends the job's work. |
| Signals.FinishCorrected | shell/ev-job-queue.c:95-101 | With a handler that fires once per dispatch, a job with no handler connected changes nothing. A wired job's completion releases exactly one reference, to it alone, and drops its handler. It clears the flag when nothing waits; otherwise it starts the head of the high queue, else of the low queue, which leaves its queue. |
| Signals.SubmitOneAtATime | shell/ev-job-queue.c:358-378 | Submission keeps the one-at-a-time shape: at most one job at work, one handler for it, the flag up exactly while it works, nothing waiting while the flag is down, and one reference per queued or working job. |
| Signals.FinishCorrectedOneAtATime | shell/ev-job-queue.c:95-121 | With one handler per dispatch, completion keeps the same one-at-a-time shape. |
| Signals.RunCorrected | shell/ev-job-queue.c:95-121 | Any run of submissions and completions with one handler per dispatch keeps at most one asynchronous job at work and never releases a reference twice. |
| Signals.DoubleCallbackStartsTwo | shell/ev-job-queue.c:111-121 | As written, a job submitted again after it finished carries two handlers. Its next completion starts two waiting jobs at once and releases one reference more than was taken. The corrected run keeps at most one job at work. |
| Signals.InitMirrors | shell/ev-job-queue.c:294-315 | Both models start from the same place: the start-up state mirrors the idle dispatcher. |
| Signals.StartMirrors | shell/ev-job-queue.c:270-285 | From an idle state with nothing in flight, the main model's run_next and the dispatcher's start the same job from the same queue, keeping the two states mirrored: same queues, flag, handler, job at work and references. |
| Signals.FinishMirrors | shell/ev-job-queue.c:95-101 | The main model's completion is the corrected one: from mirrored states, `JobQueue.JobFinished` and `FinishCorrected` end in mirrored states. |
| Signals.SubmitMirrors | shell/ev-job-queue.c:358-378 | From mirrored states, the main model's submission of an asynchronous render job and `Submit` end in mirrored states. |
| Scenarios.RenderOvertakesPrint | shell/ev-job-queue.c:148-204 | A print job submitted before a high-priority render job runs after it, and their completions are announced in that order. |
| Scenarios.AsyncJobsRunOneAtATime | shell/ev-job-queue.c:358-378 | Two asynchronous render jobs run one after the other. The second waits in its queue until the first finishes, and afterwards nothing runs and no reference is held. |
| Scenarios.RaisedJobQueuesBehindHighTier | shell/ev-job-queue.c:445-452 | A render job raised to high priority is queued behind the high-priority render job already waiting, which still runs first. |
| Scenarios.CancelledJobNeverRuns | shell/ev-job-queue.c:461-500 | A job cancelled while queued is never run and never announced, and its reference is released. |

## Left out

- Locking and threads: the mutex, the condition variable and the render thread are not modelled. Each entry point is one atomic step, and the worker's loop is one `WorkerStep` per turn. A turn that finds nothing to do, such as a spurious wake-up, changes nothing.
- Waking the worker: `g_cond_broadcast` in add_job_to_queue_locked has no effect in a sequential model.
- Deferred completions: the `g_idle_add_full` callback is modelled as the FIFO `pending`, delivered by `NotifyFinished`. The model assumes the main loop runs same-priority idle callbacks in the order they were added.
- The work itself: the `ev_job_*_run` calls in handle_job, and the job's own emission of "finished", are job code outside the scheduler. Asynchronous completion is the `Finish` event.
- `g_return_if_fail (EV_IS_JOB (job))`: only jobs exist in the model, so the non-job case cannot be expressed.
- `g_assert_not_reached`: each failed assertion becomes a precondition (`Classifiable` for find_queue and remove_job, `Reprioritizable` for update_job, `Dispatchable` for handle_job).
- RunNext: requires every queued job to sit in a queue meant for it instead of modelling handle_job's assertion on a misplaced job. `Invariants.Reachable` shows every reachable state meets this.
- WorkerStep: requires well-placed queues for the same reason. So do AddJob and JobFinished, through their calls to RunNext.
- JobFinished: follows the corrected handler wiring described under "## Findings". The in-flight slot stands for the one connected handler, and it is gone once it fires; `Signals.FinishMirrors` states the correspondence. The double callback that the code as written gives a job dispatched twice is modelled only in `Signals`.
- Signals: covers only the two asynchronous queues, the busy flag, the handlers and the references. Cancelling and reprioritising an asynchronous job do act on the two asynchronous queues (shell/ev-job-queue.c:424-432 and 468-471), but they never touch the handlers or the busy flag. They are modelled in `JobQueue` only.
- References: `refs` counts only the references the scheduler itself takes and releases. References held by the job's owner, and object finalisation, are not modelled.
- Job identity: a job is a value (`id`, kind, async flag) and the queues compare values, standing for the object identity `g_queue_find` compares.

## Findings

| source | as written | input that shows it | evidently intended | confidence | as-written member | corrected member |
|---|---|---|---|---|---|---|
| shell/ev-job-queue.c:111-121 | handle_job connects job_finished_cb to the job's "finished" signal on every dispatch, and nothing disconnects it. | Submit asynchronous render job `a`, let it finish, and submit `a` again. Then submit `b` and `c`, and let `a` finish. job_finished_cb runs twice: it starts `b`, then starts `c` while `b` is at work, and releases a second reference to `a` that the scheduler no longer holds. | One callback per dispatch, for example by disconnecting the handler when it fires. Then at most one asynchronous job is at work and each reference taken is released once. | medium: needs a caller that submits a finished job object again; not executed | Signals.DoubleCallbackStartsTwo | Signals.RunCorrected |

=== FILE: fifo.dfy ===
/** The GQueue operations the scheduler uses, on immutable sequences: the head
    of a queue is index 0 and the tail is the last index. */
module Fifo {

  datatype Option<+T> = None | Some(value: T)

  /** g_queue_push_tail: the queue grows by one at the tail. */
  function PushTail<T>(q: seq<T>, x: T): (r: seq<T>)
    ensures |r| == |q| + 1
    ensures r[..|q|] == q
    ensures r[|q|] == x
  {
    q + [x]
  }

  datatype Popped<T> = Popped(head: Option<T>, rest: seq<T>)

  /** g_queue_pop_head: nothing (NULL) for an empty queue, else the first
      element and the queue without it. */
  function PopHead<T>(q: seq<T>): (r: Popped<T>)
    ensures r.head.None? <==> |q| == 0
    ensures r.head.None? ==> r.rest == q
    ensures r.head.Some? ==> [r.head.value] + r.rest == q
  {
    if |q| == 0 then Popped(None, q) else Popped(Some(q[0]), q[1..])
  }

  /** g_queue_find: the position of the first element equal to `x`, or the
      length of the queue when there is none. */
  function Find<T(==)>(q: seq<T>, x: T): (i: nat)
    ensures i <= |q|
    ensures x !in q[..i]
    ensures i < |q| ==> q[i] == x
    ensures i == |q| <==> x !in q
  {
    if |q| == 0 then 0
    else if q[0] == x then 0
    else
      var i := 1 + Find(q[1..], x);
      assert q[..i] == [q[0]] + q[1..][..i - 1];
      i
  }

  datatype Removal<T> = Removal(found: bool, rest: seq<T>)

  /** g_queue_find followed by g_queue_delete_link: delete the first
      occurrence of `x`, reporting whether there was one. Putting `x` back at
      the position it was found at gives the original queue, so the other
      elements keep their order. */
  function Remove<T(==)>(q: seq<T>, x: T): (r: Removal<T>)
    ensures r.found <==> x in q
    ensures !r.found ==> r.rest == q
    ensures r.found ==> |r.rest| + 1 == |q|
    ensures r.found ==> multiset(r.rest) == multiset(q) - multiset{x}
    ensures r.found ==> Find(q, x) <= |r.rest|
                        && q == r.rest[..Find(q, x)] + [x] + r.rest[Find(q, x)..]
  {
    var i := Find(q, x);
    if i == |q| then Removal(false, q)
    else
      var rest := q[..i] + q[i + 1..];
      assert q == q[..i] + [x] + q[i + 1..];
      assert rest[..i] == q[..i] && rest[i..] == q[i + 1..];
      Removal(true, rest)
  }

  /** Removing what was just pushed, when it was not queued before, gives
      the queue back. */
  lemma RemoveUndoesPush<T>(q: seq<T>, x: T)
    requires x !in q
    ensures Remove(PushTail(q, x), x) == Removal(true, q)
  {
    assert (q + [x])[..|q|] == q;
    assert Find(q + [x], x) == |q|;
  }

  /** A queue is first-in first-out: pushing at the tail never changes which
      element the next pop returns, unless the queue was empty. */
  lemma PushThenPop<T>(q: seq<T>, x: T)
    ensures PopHead(PushTail(q, x)).head == Some(if |q| == 0 then x else q[0])
    ensures |q| > 0 ==> PopHead(PushTail(q, x)).rest == PushTail(PopHead(q).rest, x)
  {
    if |q| > 0 {
      assert (q + [x])[1..] == q[1..] + [x];
    }
  }

  /** An element present once is gone after one removal, so a second
      removal finds nothing. */
  lemma RemoveOnceOnly<T>(q: seq<T>, x: T)
    requires multiset(q)[x] == 1
    ensures Remove(q, x).found
    ensures !Remove(Remove(q, x).rest, x).found
  {
    var r := Remove(q, x);
    assert x in multiset(q);
    assert multiset(r.rest)[x] == 0;
  }
}

=== FILE: invariants.dfy ===
/** The invariant every reachable scheduler state keeps, and the promises
    that rest on it: one asynchronous job in flight at most, no idle
    dispatcher while asynchronous work waits, every reference the scheduler
    takes released exactly once, cancellation and reprioritisation that
    cannot act twice on a job queued once. */
module Invariants {
  import opened Jobs
  import opened Fifo
  import opened JobQueue

  /** The references the scheduler should hold: one per queued job, one per
      completion waiting in the idle queue, one for the job in flight. */
  function Owned(s: State): multiset<Job> {
    s.queues.Total() + multiset(s.pending)
    + (if s.inFlight.Some? then multiset{s.inFlight.value} else multiset{})
  }

  ghost predicate Valid(s: State) {
    && WellPlaced(s.queues)
    && (s.asyncRendering <==> s.inFlight.Some?)
    && (s.inFlight.Some? ==> s.inFlight.value.async && s.inFlight.value.kind == Render)
    && (!s.asyncRendering ==> s.queues.asyncHigh == [] && s.queues.asyncLow == [])
    && s.refs == Owned(s)
  }

  /** Pointwise reading of multiset sums, for the bookkeeping below. */
  lemma SumShift(a: multiset<Job>, b: multiset<Job>, c: multiset<Job>, j: Job)
    ensures (a + multiset{j}) + b + c == (a + b + c) + multiset{j}
    ensures a + (b + multiset{j}) + c == (a + b + c) + multiset{j}
    ensures a + b + (c + multiset{j}) == (a + b + c) + multiset{j}
  {
    assert forall x :: ((a + multiset{j}) + b + c)[x] == ((a + b + c) + multiset{j})[x];
    assert forall x :: (a + (b + multiset{j}) + c)[x] == ((a + b + c) + multiset{j})[x];
    assert forall x :: (a + b + (c + multiset{j}))[x] == ((a + b + c) + multiset{j})[x];
  }

  lemma SumDrop(a: multiset<Job>, b: multiset<Job>, c: multiset<Job>, j: Job)
    requires j in a
    ensures (a - multiset{j}) + b + c == (a + b + c) - multiset{j}
  {
    assert forall x :: ((a - multiset{j}) + b + c)[x] == ((a + b + c) - multiset{j})[x];
  }

  lemma InitValid()
    ensures Valid(Init())
  {
    var s := Init();
    forall id ensures AllHeld(id, s.queues.Get(id)) {}
  }

  /** Submission keeps the invariant. An asynchronous job submitted while
      nothing runs is started at once and leaves every queue as it was. */
  lemma AddJobValid(s: State, j: Job, p: Priority)
    requires Valid(s) && Classifiable(j)
    ensures Valid(AddJob(s, j, p))
    ensures j.async && !s.asyncRendering ==>
      AddJob(s, j, p).inFlight == Some(j) && AddJob(s, j, p).queues == s.queues
  {
    var id := FindQueue(j, p);
    var s1 := Enqueue(s, id, j);
    var fl := if s.inFlight.Some? then multiset{s.inFlight.value} else multiset{};
    SumShift(s.queues.Total(), multiset(s.pending), fl, j);
    assert s1.refs == Owned(s1);
    if j.async && !s.asyncRendering {
      SumShift(s.queues.Total(), multiset(s.pending), multiset{}, j);
    } else {
      assert !j.async ==> !IsAsyncQueue(id);
    }
  }

  /** Starting the next asynchronous job from an idle dispatcher whose
      references are in order yields a valid state, whatever was queued. */
  lemma RunNextValid(s: State)
    requires WellPlaced(s.queues) && !s.asyncRendering && s.inFlight == None
    requires s.refs == Owned(s)
    ensures Valid(RunNext(s))
  {
    var r := RunNext(s);
    if s.queues.asyncHigh != [] {
      DispatchAccounting(s, AsyncRenderHigh);
    } else if s.queues.asyncLow != [] {
      DispatchAccounting(s, AsyncRenderLow);
    }
  }

  /** The bookkeeping of one dispatch from queue `id`. */
  lemma DispatchAccounting(s: State, id: QueueId)
    requires WellPlaced(s.queues) && s.inFlight == None && s.refs == Owned(s)
    requires IsAsyncQueue(id) && s.queues.Get(id) != []
    ensures var k := s.queues.Get(id)[0];
      && k.async && k.kind == Render
      && WellPlaced(s.queues.Set(id, s.queues.Get(id)[1..]))
      && s.refs == s.queues.Set(id, s.queues.Get(id)[1..]).Total() + multiset(s.pending) + multiset{k}
  {
    var k := s.queues.Get(id)[0];
    assert AllHeld(id, s.queues.Get(id));
    TotalAfterPop(s.queues, id);
    Handover(s.refs, s.queues.Total(), s.queues.Set(id, s.queues.Get(id)[1..]).Total(), multiset(s.pending), k);
    PlacedAfterPop(s.queues, id);
  }

  /** Multiset arithmetic behind DispatchAccounting: a reference moves from
      the queues to the in-flight slot. */
  lemma Handover(refs: multiset<Job>, queued: multiset<Job>, rest: multiset<Job>, pending: multiset<Job>, k: Job)
    requires refs == queued + pending + multiset{} && rest == queued - multiset{k} && k in queued
    ensures refs == rest + pending + multiset{k}
  {
    forall x
      ensures refs[x] == (rest + pending + multiset{k})[x]
    {
    }
  }

  /** Completion of the in-flight job keeps the invariant: its reference is
      dropped and the next asynchronous job, if any, takes its place. */
  lemma JobFinishedValid(s: State, j: Job)
    requires Valid(s)
    ensures Valid(JobFinished(s, j))
  {
    if s.inFlight == Some(j) {
      var idle := Released(s, j);
      RunNextValid(idle);
      assert JobFinished(s, j) == RunNext(idle);
    }
  }

  /** The state job_finished_cb hands to run_next: the in-flight job's
      reference is gone and the scheduler is idle. */
  lemma Released(s: State, j: Job) returns (idle: State)
    requires Valid(s) && s.inFlight == Some(j)
    ensures idle == s.(refs := s.refs - multiset{j}, asyncRendering := false, inFlight := None)
    ensures WellPlaced(idle.queues) && idle.refs == Owned(idle)
  {
    idle := s.(refs := s.refs - multiset{j}, asyncRendering := false, inFlight := None);
    RefRoundTrip(s.queues.Total() + multiset(s.pending), j);
  }

  /** A worker turn keeps the invariant: the queue's reference to the job it
      runs passes to the pending completion. */
  lemma WorkerStepValid(s: State)
    requires Valid(s)
    ensures Valid(WorkerStep(s).state)
  {
    if !NoJobsAvailable(s.queues) {
      FirstNonEmptyExists(s.queues);
      var id :| IsFirstNonEmpty(s.queues, id);
      WorkerFollowsLadder(s, id);
      PopToPendingValid(s, id);
    }
  }

  /** Moving the head of a worker queue to the pending completions keeps the
      invariant. */
  lemma PopToPendingValid(s: State, id: QueueId)
    requires Valid(s) && !IsAsyncQueue(id) && s.queues.Get(id) != []
    ensures Valid(s.(queues := s.queues.Set(id, s.queues.Get(id)[1..]),
                     pending := s.pending + [s.queues.Get(id)[0]]))
  {
    var r := s.(queues := s.queues.Set(id, s.queues.Get(id)[1..]),
                pending := s.pending + [s.queues.Get(id)[0]]);
    WorkerPopAccounting(s, id);
    PlacedAfterPop(s.queues, id);
    assert r.queues.Get(AsyncRenderHigh) == s.queues.Get(AsyncRenderHigh);
    assert r.queues.Get(AsyncRenderLow) == s.queues.Get(AsyncRenderLow);
  }

  /** The bookkeeping of one worker pop from queue `id`. */
  lemma WorkerPopAccounting(s: State, id: QueueId)
    requires s.refs == Owned(s) && s.queues.Get(id) != []
    ensures var k := s.queues.Get(id)[0];
      s.refs == Owned(s.(queues := s.queues.Set(id, s.queues.Get(id)[1..]), pending := s.pending + [k]))
  {
    var k := s.queues.Get(id)[0];
    var fl := if s.inFlight.Some? then multiset{s.inFlight.value} else multiset{};
    TotalAfterPop(s.queues, id);
    assert multiset(s.pending + [k]) == multiset(s.pending) + multiset{k};
    PassOn(s.refs, s.queues.Total(), s.queues.Set(id, s.queues.Get(id)[1..]).Total(), multiset(s.pending), fl, k);
  }

  /** Multiset arithmetic behind WorkerPopAccounting: a reference moves from
      the queues to the pending completions. */
  lemma PassOn(refs: multiset<Job>, queued: multiset<Job>, rest: multiset<Job>,
               pending: multiset<Job>, fl: multiset<Job>, k: Job)
    requires refs == queued + pending + fl && rest == queued - multiset{k} && k in queued
    ensures refs == rest + (pending + multiset{k}) + fl
  {
    forall x
      ensures refs[x] == (rest + (pending + multiset{k}) + fl)[x]
    {
    }
  }

  /** Delivering a worker job's completion keeps the invariant. */
  lemma NotifyFinishedValid(s: State)
    requires Valid(s)
    ensures Valid(NotifyFinished(s))
  {
    if s.pending != [] {
      var h := s.pending[0];
      var r := NotifyFinished(s);
      assert multiset(s.pending) == multiset(r.pending) + multiset{h} by {
        assert s.pending == [h] + r.pending;
      }
      var fl := if s.inFlight.Some? then multiset{s.inFlight.value} else multiset{};
      SumShift(s.queues.Total(), multiset(r.pending), fl, h);
      RefRoundTrip(s.queues.Total() + multiset(r.pending) + fl, h);
    }
  }

  /** Cancellation keeps the invariant. */
  lemma RemoveJobValid(s: State, j: Job)
    requires Valid(s) && Classifiable(j)
    ensures Valid(RemoveJob(s, j).state)
  {
    RemoveJobOwned(s, j);
    if !s.asyncRendering {
      RemoveJobKeepsIdle(s, j);
    }
  }

  /** Cancellation drops exactly the reference of the job it removes. */
  lemma RemoveJobOwned(s: State, j: Job)
    requires Classifiable(j) && s.refs == Owned(s)
    ensures RemoveJob(s, j).state.refs == Owned(RemoveJob(s, j).state)
  {
    var r := RemoveJob(s, j);
    if r.ok {
      InTotalOfQueued(s.queues, j);
      var fl := if s.inFlight.Some? then multiset{s.inFlight.value} else multiset{};
      SumDrop(s.queues.Total(), multiset(s.pending), fl, j);
    }
  }

  /** Cancellation never fills an empty asynchronous queue. */
  lemma RemoveJobKeepsIdle(s: State, j: Job)
    requires Classifiable(j)
    requires s.queues.asyncHigh == [] && s.queues.asyncLow == []
    ensures RemoveJob(s, j).state.queues.asyncHigh == []
    ensures RemoveJob(s, j).state.queues.asyncLow == []
  {
    if j.async {
      assert FindQueue(j, High) == AsyncRenderHigh && FindQueue(j, Low) == AsyncRenderLow;
      assert s.queues.Get(AsyncRenderHigh) == [] && s.queues.Get(AsyncRenderLow) == [];
      assert RemoveJob(s, j).state == s;
    } else {
      var r := RemoveJob(s, j);
      assert !Holds(AsyncRenderHigh, j) && !Holds(AsyncRenderLow, j);
      assert r.state.queues.Get(AsyncRenderHigh) == s.queues.Get(AsyncRenderHigh);
      assert r.state.queues.Get(AsyncRenderLow) == s.queues.Get(AsyncRenderLow);
    }
  }

  /** A queued job is counted among the queued jobs. */
  lemma InTotalOfQueued(qs: Queues, j: Job)
    requires Queued(qs, j)
    ensures j in qs.Total()
  {
    var id :| Holds(id, j) && j in qs.Get(id);
    InQueueInTotal(qs, id, j);
  }

  /** Reprioritisation keeps the invariant. */
  lemma UpdateJobValid(s: State, j: Job, p: Priority)
    requires Valid(s) && Reprioritizable(j)
    ensures Valid(UpdateJob(s, j, p).state)
  {
    var r := UpdateJob(s, j, p);
    if r.ok {
      if !s.asyncRendering {
        UpdateKeepsIdle(s, j, p);
      }
      ReshuffleValid(s, r.state.queues);
    }
  }

  /** Reprioritisation never fills an empty asynchronous queue. */
  lemma UpdateKeepsIdle(s: State, j: Job, p: Priority)
    requires Reprioritizable(j)
    requires s.queues.asyncHigh == [] && s.queues.asyncLow == []
    ensures UpdateJob(s, j, p).state.queues.Get(AsyncRenderHigh) == []
    ensures UpdateJob(s, j, p).state.queues.Get(AsyncRenderLow) == []
  {
    var r := UpdateJob(s, j, p);
    if j.async {
      var from := FindQueue(j, Opposite(p));
      assert IsAsyncQueue(from);
      assert s.queues.Get(from) == [];
      assert !r.ok;
    } else {
      assert r.state.queues.asyncHigh == [] && r.state.queues.asyncLow == [];
    }
  }

  /** Rearranging the queued jobs among queues meant for them, without
      adding or dropping any and without filling an idle dispatcher's
      queues, keeps the invariant. */
  lemma ReshuffleValid(s: State, qs: Queues)
    requires Valid(s) && WellPlaced(qs) && qs.Total() == s.queues.Total()
    requires !s.asyncRendering ==> qs.Get(AsyncRenderHigh) == [] && qs.Get(AsyncRenderLow) == []
    ensures Valid(s.(queues := qs))
  {
  }

  /** A job sitting in two different queues is queued at least twice. */
  lemma TwoQueuesTwice(qs: Queues, a: QueueId, b: QueueId, j: Job)
    requires a != b && j in qs.Get(a) && j in qs.Get(b)
    ensures qs.Total()[j] >= 2
  {
    TotalAfterSet(qs, a, []);
    assert qs.Set(a, []).Get(b) == qs.Get(b);
    InQueueInTotal(qs.Set(a, []), b, j);
    assert (qs.Set(a, []).Total() + multiset(qs.Get(a)))[j] == qs.Total()[j];
  }

  /** Cancelling a job queued once succeeds the first time and fails the
      second: the job is gone. */
  lemma CancelIdempotent(s: State, j: Job)
    requires WellPlaced(s.queues) && Classifiable(j)
    requires s.queues.Total()[j] == 1
    ensures RemoveJob(s, j).ok
    ensures !RemoveJob(RemoveJob(s, j).state, j).ok
    ensures RemoveJob(RemoveJob(s, j).state, j).state == RemoveJob(s, j).state
  {
    var id := TotalToQueue(s.queues, j);
    assert AllHeld(id, s.queues.Get(id));
    var k :| 0 <= k < |s.queues.Get(id)| && s.queues.Get(id)[k] == j;
    assert Holds(id, j);
    var r := RemoveJob(s, j);
    assert r.state.queues.Total()[j] == 0;
    if Queued(r.state.queues, j) {
      InTotalOfQueued(r.state.queues, j);
    }
  }

  /** Submitting a worker job that was not queued and then cancelling it
      gives back the scheduler exactly as it was: the job, its queue slot
      and its reference are all gone again. */
  lemma SubmitThenCancel(s: State, j: Job, p: Priority)
    requires WellPlaced(s.queues) && Classifiable(j) && !j.async
    requires j !in s.queues.Total()
    ensures RemoveJob(AddJob(s, j, p), j).ok
    ensures RemoveJob(AddJob(s, j, p), j).state == s
  {
    var id := FindQueue(j, p);
    var a := AddJob(s, j, p);
    assert a == Enqueue(s, id, j);
    if j in s.queues.Get(id) {
      InQueueInTotal(s.queues, id, j);
    }
    RemoveUndoesPush(s.queues.Get(id), j);
    var hi := FindQueue(j, High);
    if hi != id {
      if j in s.queues.Get(hi) {
        InQueueInTotal(s.queues, hi, j);
      }
      assert j !in a.queues.Get(hi);
      assert RemoveJob(a, j) == RemoveFromQueue(a, id, j);
    } else {
      assert RemoveJob(a, j) == RemoveFromQueue(a, id, j);
    }
    assert a.queues == s.queues.Set(id, s.queues.Get(id) + [j]);
    CancelRestores(s, a, id, j);
  }

  /** Taking the job just appended to queue `id` back out restores the state
      from before the append. */
  lemma CancelRestores(s: State, a: State, id: QueueId, j: Job)
    requires a.queues == s.queues.Set(id, s.queues.Get(id) + [j])
    requires a == s.(queues := a.queues, refs := s.refs + multiset{j})
    requires j !in s.queues.Get(id)
    ensures RemoveFromQueue(a, id, j).ok
    ensures RemoveFromQueue(a, id, j).state == s
  {
    RemoveUndoesPush(s.queues.Get(id), j);
    assert Remove(a.queues.Get(id), j) == Removal(true, s.queues.Get(id));
    var r := RemoveFromQueue(a, id, j);
    var back := a.queues.Set(id, s.queues.Get(id));
    assert r.state.queues == back;
    QueuesEqual(back, s.queues);
    RefRoundTrip(s.refs, j);
    assert r.state.refs == s.refs;
  }

  /** A job counted among the queued jobs sits in some queue. */
  lemma TotalToQueue(qs: Queues, j: Job) returns (id: QueueId)
    requires j in qs.Total()
    ensures j in qs.Get(id)
  {
    if j in qs.renderHigh { id := RenderHigh; }
    else if j in qs.renderLow { id := RenderLow; }
    else if j in qs.thumbnailHigh { id := ThumbnailHigh; }
    else if j in qs.thumbnailLow { id := ThumbnailLow; }
    else if j in qs.links { id := LinksQueue; }
    else if j in qs.load { id := LoadQueue; }
    else if j in qs.fonts { id := FontsQueue; }
    else if j in qs.printing { id := PrintQueue; }
    else if j in qs.asyncHigh { id := AsyncRenderHigh; }
    else { id := AsyncRenderLow; }
  }

  /** Asking for the tier a job queued once already sits in fails and
      changes nothing. */
  lemma UpdateToSameTierFails(s: State, j: Job, p: Priority)
    requires Reprioritizable(j)
    requires j in s.queues.Get(FindQueue(j, p)) && s.queues.Total()[j] == 1
    ensures !UpdateJob(s, j, p).ok
    ensures UpdateJob(s, j, p).state == s
  {
    if j in s.queues.Get(FindQueue(j, Opposite(p))) {
      TwoQueuesTwice(s.queues, FindQueue(j, p), FindQueue(j, Opposite(p)), j);
    }
  }

  /** A successful reprioritisation of a job queued once cannot be repeated:
      the job has left the tier it was taken from. */
  lemma UpdateOnce(s: State, j: Job, p: Priority)
    requires Reprioritizable(j) && s.queues.Total()[j] == 1
    requires UpdateJob(s, j, p).ok
    ensures !UpdateJob(UpdateJob(s, j, p).state, j, p).ok
  {
    var r := UpdateJob(s, j, p);
    assert j in r.state.queues.Get(FindQueue(j, p));
    UpdateToSameTierFails(r.state, j, p);
  }

  /** The scheduler's entry points and the events that drive it. */
  datatype Event =
    | Submit(job: Job, priority: Priority)
    | Reprioritize(job: Job, priority: Priority)
    | Cancel(job: Job)
    | WorkerTurn
    | IdleNotify
    | Finish(job: Job)

  /** The events that do not hit a failed assertion. */
  predicate Allowed(e: Event) {
    match e
    case Submit(j, _) => Classifiable(j)
    case Reprioritize(j, _) => Reprioritizable(j)
    case Cancel(j) => Classifiable(j)
    case _ => true
  }

  function Apply(s: State, e: Event): State
    requires WellPlaced(s.queues) && Allowed(e)
  {
    match e
    case Submit(j, p) => AddJob(s, j, p)
    case Reprioritize(j, p) => UpdateJob(s, j, p).state
    case Cancel(j) => RemoveJob(s, j).state
    case WorkerTurn => WorkerStep(s).state
    case IdleNotify => NotifyFinished(s)
    case Finish(j) => JobFinished(s, j)
  }

  /** Every transition keeps the invariant. */
  lemma ApplyValid(s: State, e: Event)
    requires Valid(s) && Allowed(e)
    ensures Valid(Apply(s, e))
  {
    match e
    case Submit(j, p) => AddJobValid(s, j, p);
    case Reprioritize(j, p) => UpdateJobValid(s, j, p);
    case Cancel(j) => RemoveJobValid(s, j);
    case WorkerTurn => WorkerStepValid(s);
    case IdleNotify => NotifyFinishedValid(s);
    case Finish(j) => JobFinishedValid(s, j);
  }

  /** Run a sequence of events; every state reached is valid. */
  function Run(s: State, es: seq<Event>): (r: State)
    requires Valid(s)
    requires forall i :: 0 <= i < |es| ==> Allowed(es[i])
    ensures Valid(r)
    decreases |es|
  {
    if es == [] then s
    else
      ApplyValid(s, es[0]);
      Run(Apply(s, es[0]), es[1..])
  }

  /** From start-up, whatever the producers do: at most one asynchronous
      render job is in flight, the busy flag says whether there is one, the
      dispatcher is never idle while asynchronous work waits, and the
      scheduler holds exactly one reference per queued, pending or running
      job. */
  lemma Reachable(es: seq<Event>)
    requires forall i :: 0 <= i < |es| ==> Allowed(es[i])
    ensures var s := Run(Init(), es);
      && (s.asyncRendering <==> s.inFlight.Some?)
      && (s.inFlight.Some? ==> s.inFlight.value.async && s.inFlight.value.kind == Render)
      && (!s.asyncRendering ==> s.queues.asyncHigh == [] && s.queues.asyncLow == [])
      && s.refs == Owned(s)
  {
    InitValid();
  }
}

=== FILE: job_queue.dfy ===
/** The job scheduler: eight queues drained by the worker thread, two queues
    of asynchronous render jobs drained on the main thread one job at a
    time, and the submit / reprioritise / cancel entry points. Every locked
    section of the scheduler is one atomic transition here. */
module JobQueue {
  import opened Jobs
  import opened Fifo

  datatype QueueId =
    | RenderHigh | ThumbnailHigh | RenderLow | LinksQueue | LoadQueue
    | ThumbnailLow | FontsQueue | PrintQueue | AsyncRenderHigh | AsyncRenderLow

  /** Position of a queue on the worker's priority ladder (0 is served
      first); the two asynchronous queues are not on the ladder and rank
      after all eight. */
  function Rank(id: QueueId): nat {
    match id
    case RenderHigh => 0
    case ThumbnailHigh => 1
    case RenderLow => 2
    case LinksQueue => 3
    case LoadQueue => 4
    case ThumbnailLow => 5
    case FontsQueue => 6
    case PrintQueue => 7
    case AsyncRenderHigh => 8
    case AsyncRenderLow => 9
  }

  /** The queues drained on the main thread rather than by the worker. */
  predicate IsAsyncQueue(id: QueueId) {
    id == AsyncRenderHigh || id == AsyncRenderLow
  }

  /** The kind of job a queue is meant for. */
  function QueueKind(id: QueueId): Kind {
    match id
    case RenderHigh => Render
    case RenderLow => Render
    case AsyncRenderHigh => Render
    case AsyncRenderLow => Render
    case ThumbnailHigh => Thumbnail
    case ThumbnailLow => Thumbnail
    case LinksQueue => Links
    case LoadQueue => Load
    case FontsQueue => Fonts
    case PrintQueue => Print
  }

  /** The high tier of a two-tier kind. */
  predicate IsHighQueue(id: QueueId) {
    id == RenderHigh || id == ThumbnailHigh || id == AsyncRenderHigh
  }

  /** Queue `id` is one that job `j` may sit in, whatever its priority. */
  predicate Holds(id: QueueId, j: Job) {
    QueueKind(id) == j.kind && IsAsyncQueue(id) == j.async
  }

  /** Queue `id` is where job `j` submitted at priority `p` belongs: the
      priority picks the tier for two-tier kinds and is ignored otherwise. */
  predicate Accepts(id: QueueId, j: Job, p: Priority) {
    Holds(id, j) && (Tiered(j.kind) ==> (IsHighQueue(id) <==> p == High))
  }

  function Opposite(p: Priority): Priority {
    if p == High then Low else High
  }

  /** The ten queues. */
  datatype Queues = Queues(
    renderHigh: seq<Job>, renderLow: seq<Job>,
    thumbnailHigh: seq<Job>, thumbnailLow: seq<Job>,
    links: seq<Job>, load: seq<Job>, fonts: seq<Job>, printing: seq<Job>,
    asyncHigh: seq<Job>, asyncLow: seq<Job>)
  {
    function Get(id: QueueId): seq<Job> {
      match id
      case RenderHigh => renderHigh
      case RenderLow => renderLow
      case ThumbnailHigh => thumbnailHigh
      case ThumbnailLow => thumbnailLow
      case LinksQueue => links
      case LoadQueue => load
      case FontsQueue => fonts
      case PrintQueue => printing
      case AsyncRenderHigh => asyncHigh
      case AsyncRenderLow => asyncLow
    }

    /** Replace one queue; every other queue is left as it was. */
    function Set(id: QueueId, q: seq<Job>): (r: Queues)
      ensures r.Get(id) == q
      ensures forall o :: o != id ==> r.Get(o) == Get(o)
    {
      Queues(
        if id == RenderHigh then q else renderHigh,
        if id == RenderLow then q else renderLow,
        if id == ThumbnailHigh then q else thumbnailHigh,
        if id == ThumbnailLow then q else thumbnailLow,
        if id == LinksQueue then q else links,
        if id == LoadQueue then q else load,
        if id == FontsQueue then q else fonts,
        if id == PrintQueue then q else printing,
        if id == AsyncRenderHigh then q else asyncHigh,
        if id == AsyncRenderLow then q else asyncLow)
    }

    /** Every queued job, with multiplicity. */
    function Total(): multiset<Job> {
      multiset(renderHigh) + multiset(renderLow)
      + multiset(thumbnailHigh) + multiset(thumbnailLow)
      + multiset(links) + multiset(load) + multiset(fonts) + multiset(printing)
      + multiset(asyncHigh) + multiset(asyncLow)
    }
  }

  /** Two queue sets with the same contents in every queue are equal. */
  lemma QueuesEqual(a: Queues, b: Queues)
    requires forall id :: a.Get(id) == b.Get(id)
    ensures a == b
  {
    assert a.Get(RenderHigh) == b.Get(RenderHigh) && a.Get(RenderLow) == b.Get(RenderLow);
    assert a.Get(ThumbnailHigh) == b.Get(ThumbnailHigh) && a.Get(ThumbnailLow) == b.Get(ThumbnailLow);
    assert a.Get(LinksQueue) == b.Get(LinksQueue) && a.Get(LoadQueue) == b.Get(LoadQueue);
    assert a.Get(FontsQueue) == b.Get(FontsQueue) && a.Get(PrintQueue) == b.Get(PrintQueue);
    assert a.Get(AsyncRenderHigh) == b.Get(AsyncRenderHigh) && a.Get(AsyncRenderLow) == b.Get(AsyncRenderLow);
  }

  /** Replacing one queue changes the queued jobs by exactly the difference
      between the old and the new contents of that queue. */
  lemma TotalAfterSet(qs: Queues, id: QueueId, q: seq<Job>)
    ensures qs.Set(id, q).Total() + multiset(qs.Get(id)) == qs.Total() + multiset(q)
  {
    var r := qs.Set(id, q);
    assert r.Set(id, []) == qs.Set(id, []);
    TotalSplit(qs, id);
    TotalSplit(r, id);
    SwapPart(r.Total(), qs.Total(), multiset(qs.Get(id)), multiset(q), qs.Set(id, []).Total());
  }

  /** The queued jobs are those of one queue plus those of all the others. */
  lemma TotalSplit(qs: Queues, id: QueueId)
    ensures qs.Total() == multiset(qs.Get(id)) + qs.Set(id, []).Total()
  {
    match id
    case RenderHigh => SplitRenderHigh(qs); assert qs.Set(id, []) == qs.(renderHigh := []);
    case RenderLow => SplitRenderLow(qs); assert qs.Set(id, []) == qs.(renderLow := []);
    case ThumbnailHigh => SplitThumbnailHigh(qs); assert qs.Set(id, []) == qs.(thumbnailHigh := []);
    case ThumbnailLow => SplitThumbnailLow(qs); assert qs.Set(id, []) == qs.(thumbnailLow := []);
    case LinksQueue => SplitLinksQueue(qs); assert qs.Set(id, []) == qs.(links := []);
    case LoadQueue => SplitLoadQueue(qs); assert qs.Set(id, []) == qs.(load := []);
    case FontsQueue => SplitFontsQueue(qs); assert qs.Set(id, []) == qs.(fonts := []);
    case PrintQueue => SplitPrintQueue(qs); assert qs.Set(id, []) == qs.(printing := []);
    case AsyncRenderHigh => SplitAsyncRenderHigh(qs); assert qs.Set(id, []) == qs.(asyncHigh := []);
    case AsyncRenderLow => SplitAsyncRenderLow(qs); assert qs.Set(id, []) == qs.(asyncLow := []);
  }

  /** TotalSplit for each queue in turn, with emptying it written as a field
      update. */
  lemma SplitRenderHigh(qs: Queues)
    ensures qs.Total() == multiset(qs.renderHigh) + qs.(renderHigh := []).Total()
  {
  }

  lemma SplitRenderLow(qs: Queues)
    ensures qs.Total() == multiset(qs.renderLow) + qs.(renderLow := []).Total()
  {
  }

  lemma SplitThumbnailHigh(qs: Queues)
    ensures qs.Total() == multiset(qs.thumbnailHigh) + qs.(thumbnailHigh := []).Total()
  {
  }

  lemma SplitThumbnailLow(qs: Queues)
    ensures qs.Total() == multiset(qs.thumbnailLow) + qs.(thumbnailLow := []).Total()
  {
  }

  lemma SplitLinksQueue(qs: Queues)
    ensures qs.Total() == multiset(qs.links) + qs.(links := []).Total()
  {
  }

  lemma SplitLoadQueue(qs: Queues)
    ensures qs.Total() == multiset(qs.load) + qs.(load := []).Total()
  {
  }

  lemma SplitFontsQueue(qs: Queues)
    ensures qs.Total() == multiset(qs.fonts) + qs.(fonts := []).Total()
  {
  }

  lemma SplitPrintQueue(qs: Queues)
    ensures qs.Total() == multiset(qs.printing) + qs.(printing := []).Total()
  {
  }

  lemma SplitAsyncRenderHigh(qs: Queues)
    ensures qs.Total() == multiset(qs.asyncHigh) + qs.(asyncHigh := []).Total()
  {
  }

  lemma SplitAsyncRenderLow(qs: Queues)
    ensures qs.Total() == multiset(qs.asyncLow) + qs.(asyncLow := []).Total()
  {
  }

  /** Multiset arithmetic behind TotalAfterSet: exchanging one part of a sum. */
  lemma SwapPart(after: multiset<Job>, before: multiset<Job>, a: multiset<Job>, b: multiset<Job>, others: multiset<Job>)
    requires after == b + others && before == a + others
    ensures after + a == before + b
  {
    forall x
      ensures (after + a)[x] == (before + b)[x]
    {
    }
  }

  /** Appending a job to one queue adds exactly that job to the queued jobs. */
  lemma TotalAfterPush(qs: Queues, id: QueueId, j: Job)
    ensures qs.Set(id, qs.Get(id) + [j]).Total() == qs.Total() + multiset{j}
  {
    TotalAfterSet(qs, id, qs.Get(id) + [j]);
    assert multiset(qs.Get(id) + [j]) == multiset(qs.Get(id)) + multiset{j};
    CancelPart(qs.Set(id, qs.Get(id) + [j]).Total(), qs.Total(), multiset(qs.Get(id)), j);
  }

  /** Multiset arithmetic behind TotalAfterPush: cancelling a common part. */
  lemma CancelPart(after: multiset<Job>, before: multiset<Job>, a: multiset<Job>, j: Job)
    requires after + a == before + (a + multiset{j})
    ensures after == before + multiset{j}
  {
    forall x
      ensures after[x] == (before + multiset{j})[x]
    {
      assert (after + a)[x] == (before + (a + multiset{j}))[x];
    }
  }

  /** Replacing a queue by contents with one job fewer takes exactly that job
      out of the queued jobs. */
  lemma TotalAfterDelete(qs: Queues, id: QueueId, q: seq<Job>, j: Job)
    requires multiset(q) == multiset(qs.Get(id)) - multiset{j}
    requires j in qs.Get(id)
    ensures qs.Set(id, q).Total() == qs.Total() - multiset{j}
  {
    TotalAfterSet(qs, id, q);
    InQueueInTotal(qs, id, j);
    CancelOne(qs.Set(id, q).Total(), multiset(qs.Get(id)), qs.Total(), multiset(q), j);
  }

  /** Popping the head of a queue takes exactly that job out of the queued
      jobs. */
  lemma TotalAfterPop(qs: Queues, id: QueueId)
    requires qs.Get(id) != []
    ensures qs.Get(id)[0] in qs.Total()
    ensures qs.Set(id, qs.Get(id)[1..]).Total() == qs.Total() - multiset{qs.Get(id)[0]}
  {
    var k := qs.Get(id)[0];
    assert multiset(qs.Get(id)[1..]) == multiset(qs.Get(id)) - multiset{k} by {
      assert qs.Get(id) == [k] + qs.Get(id)[1..];
    }
    TotalAfterDelete(qs, id, qs.Get(id)[1..], k);
    InQueueInTotal(qs, id, k);
  }

  /** Multiset arithmetic behind TotalAfterDelete. */
  lemma CancelOne(after: multiset<Job>, before: multiset<Job>, total: multiset<Job>, now: multiset<Job>, j: Job)
    requires after + before == total + now
    requires now == before - multiset{j} && j in before
    ensures after == total - multiset{j}
  {
    forall x
      ensures after[x] == (total - multiset{j})[x]
    {
      assert (after + before)[x] == (total + now)[x];
    }
  }

  /** Taking a reference and dropping it again leaves the references as they
      were; so does dropping one and taking it back. */
  lemma RefRoundTrip(m: multiset<Job>, j: Job)
    ensures m + multiset{j} - multiset{j} == m
    ensures j in m ==> m - multiset{j} + multiset{j} == m
  {
    assert forall x :: (m + multiset{j} - multiset{j})[x] == m[x];
    if j in m {
      assert forall x :: (m - multiset{j} + multiset{j})[x] == m[x];
    }
  }

  /** Multiset arithmetic behind MoveAccounting: a job taken out and put
      back leaves the whole as it was. */
  lemma PutBack(whole: multiset<Job>, taken: multiset<Job>, back: multiset<Job>, j: Job)
    requires j in whole && taken == whole - multiset{j} && back == taken + multiset{j}
    ensures back == whole
  {
    assert forall x :: back[x] == whole[x];
  }

  /** Dropping the head of a queue keeps every job placed. */
  lemma PlacedAfterPop(qs: Queues, id: QueueId)
    requires WellPlaced(qs) && qs.Get(id) != []
    ensures WellPlaced(qs.Set(id, qs.Get(id)[1..]))
  {
    assert AllHeld(id, qs.Get(id));
    PlacedAfterSet(qs, id, qs.Get(id)[1..]);
  }

  /** A job in any queue is counted among the queued jobs. */
  lemma InQueueInTotal(qs: Queues, id: QueueId, j: Job)
    requires j in qs.Get(id)
    ensures j in qs.Total()
  {
    assert j in multiset(qs.Get(id));
  }

  /** Every queued job sits in a queue meant for it: this is what FindQueue
      establishes at submission, and what keeps handle_job's assertion from
      failing. */
  ghost predicate WellPlaced(qs: Queues) {
    forall id :: AllHeld(id, qs.Get(id))
  }

  /** Every job of `q` may sit in queue `id`. */
  ghost predicate AllHeld(id: QueueId, q: seq<Job>) {
    forall k :: 0 <= k < |q| ==> Holds(id, q[k])
  }

  /** Replacing one queue by contents meant for it keeps every job placed. */
  lemma PlacedAfterSet(qs: Queues, id: QueueId, q: seq<Job>)
    requires WellPlaced(qs) && AllHeld(id, q)
    ensures WellPlaced(qs.Set(id, q))
  {
    forall o
      ensures AllHeld(o, qs.Set(id, q).Get(o))
    {
      if o != id {
        assert qs.Set(id, q).Get(o) == qs.Get(o);
      }
    }
  }

  /** Contents drawn from a queue are meant for that queue. */
  lemma HeldSubset(id: QueueId, q: seq<Job>, q': seq<Job>)
    requires AllHeld(id, q) && multiset(q') <= multiset(q)
    ensures AllHeld(id, q')
  {
    forall k | 0 <= k < |q'|
      ensures Holds(id, q'[k])
    {
      assert q'[k] in multiset(q');
      assert q'[k] in multiset(q);
      var i :| 0 <= i < |q| && q[i] == q'[k];
    }
  }

  /** The whole scheduler.
      - `asyncRendering` is the flag that an asynchronous job is running;
      - `inFlight` is the asynchronous job whose "finished" signal handle_job
        connected to job_finished_cb;
      - `pending` holds the jobs the worker ran whose completion is waiting
        in the main loop's idle queue;
      - `refs` holds the references the scheduler owns, one per g_object_ref
        it has not yet matched with a g_object_unref. */
  datatype State = State(
    queues: Queues,
    asyncRendering: bool,
    inFlight: Option<Job>,
    pending: seq<Job>,
    refs: multiset<Job>)

  /** ev_job_queue_init: ten empty queues, nothing running. */
  function Init(): (s: State)
    ensures forall id :: s.queues.Get(id) == []
    ensures !s.asyncRendering && s.inFlight == None && s.pending == [] && s.refs == multiset{}
  {
    State(Queues([], [], [], [], [], [], [], [], [], []), false, None, [], multiset{})
  }

  /** find_queue. */
  function FindQueue(j: Job, p: Priority): (id: QueueId)
    requires Classifiable(j)
    ensures Accepts(id, j, p)
  {
    if j.async then
      if p == High then AsyncRenderHigh else AsyncRenderLow
    else if j.kind == Render then
      if p == High then RenderHigh else RenderLow
    else if j.kind == Thumbnail then
      if p == High then ThumbnailHigh else ThumbnailLow
    else if j.kind == Load then LoadQueue
    else if j.kind == Links then LinksQueue
    else if j.kind == Fonts then FontsQueue
    else
      assert j.kind == Print;
      PrintQueue
  }

  /** no_jobs_available_unlocked: all eight worker queues are empty. */
  function NoJobsAvailable(qs: Queues): (r: bool)
    ensures r <==> forall id :: !IsAsyncQueue(id) ==> qs.Get(id) == []
  {
    WorkerQueuesEmpty(qs);
    && qs.renderHigh == []
    && qs.renderLow == []
    && qs.links == []
    && qs.load == []
    && qs.thumbnailHigh == []
    && qs.thumbnailLow == []
    && qs.fonts == []
    && qs.printing == []
  }

  /** The eight worker queues, spelled out. */
  lemma WorkerQueuesEmpty(qs: Queues)
    ensures (forall id :: !IsAsyncQueue(id) ==> qs.Get(id) == [])
            <==> (qs.renderHigh == [] && qs.renderLow == [] && qs.links == [] && qs.load == []
                  && qs.thumbnailHigh == [] && qs.thumbnailLow == [] && qs.fonts == [] && qs.printing == [])
  {
    assert qs.Get(RenderHigh) == qs.renderHigh && qs.Get(RenderLow) == qs.renderLow;
    assert qs.Get(ThumbnailHigh) == qs.thumbnailHigh && qs.Get(ThumbnailLow) == qs.thumbnailLow;
    assert qs.Get(LinksQueue) == qs.links && qs.Get(LoadQueue) == qs.load;
    assert qs.Get(FontsQueue) == qs.fonts && qs.Get(PrintQueue) == qs.printing;
    if qs.renderHigh == [] && qs.renderLow == [] && qs.links == [] && qs.load == []
       && qs.thumbnailHigh == [] && qs.thumbnailLow == [] && qs.fonts == [] && qs.printing == []
    {
      forall id | !IsAsyncQueue(id)
        ensures qs.Get(id) == []
      {
        match id
        case RenderHigh =>
        case RenderLow =>
        case ThumbnailHigh =>
        case ThumbnailLow =>
        case LinksQueue =>
        case LoadQueue =>
        case FontsQueue =>
        case PrintQueue =>
      }
    }
  }

  /** `id` is the worker queue the ladder serves next: it is non-empty and
      every worker queue of higher priority is empty. */
  ghost predicate IsFirstNonEmpty(qs: Queues, id: QueueId) {
    && !IsAsyncQueue(id)
    && qs.Get(id) != []
    && forall o :: !IsAsyncQueue(o) && Rank(o) < Rank(id) ==> qs.Get(o) == []
  }

  datatype Selection = Selection(job: Option<Job>, queues: Queues)

  /** One g_queue_pop_head on queue `id`. */
  function TryPop(qs: Queues, id: QueueId): (r: Selection)
    ensures r.job.None? <==> qs.Get(id) == []
    ensures r.job.None? ==> r.queues == qs
    ensures r.job.Some? ==> r.job.value == qs.Get(id)[0] && r.queues == qs.Set(id, qs.Get(id)[1..])
  {
    var p := PopHead(qs.Get(id));
    Selection(p.head, qs.Set(id, p.rest))
  }

  /** search_for_jobs_unlocked: pop the head of the first non-empty queue in
      the order render-high, thumbnail-high, render-low, links, load,
      thumbnail-low, fonts, print. */
  function SearchForJobs(qs: Queues): (r: Selection)
    ensures r.job.None? <==> NoJobsAvailable(qs)
    ensures r.job.None? ==> r.queues == qs
  {
    var r := TryPop(qs, RenderHigh);
    if r.job.Some? then r else
    var r := TryPop(qs, ThumbnailHigh);
    if r.job.Some? then r else
    var r := TryPop(qs, RenderLow);
    if r.job.Some? then r else
    var r := TryPop(qs, LinksQueue);
    if r.job.Some? then r else
    var r := TryPop(qs, LoadQueue);
    if r.job.Some? then r else
    var r := TryPop(qs, ThumbnailLow);
    if r.job.Some? then r else
    var r := TryPop(qs, FontsQueue);
    if r.job.Some? then r else
    var r := TryPop(qs, PrintQueue);
    if r.job.Some? then r else
    Selection(None, qs)
  }

  /** The ladder: the job search_for_jobs_unlocked returns is the head of the
      highest-priority non-empty worker queue, and popping it changes that
      queue only, by dropping its head. */
  lemma SearchFollowsLadder(qs: Queues, id: QueueId)
    requires IsFirstNonEmpty(qs, id)
    ensures SearchForJobs(qs).job == Some(qs.Get(id)[0])
    ensures SearchForJobs(qs).queues == qs.Set(id, qs.Get(id)[1..])
  {
    match id
    case RenderHigh =>
    case ThumbnailHigh =>
      assert qs.Get(RenderHigh) == [];
    case RenderLow =>
      assert qs.Get(RenderHigh) == [] && qs.Get(ThumbnailHigh) == [];
    case LinksQueue =>
      assert qs.Get(RenderHigh) == [] && qs.Get(ThumbnailHigh) == [] && qs.Get(RenderLow) == [];
    case LoadQueue =>
      assert qs.Get(RenderHigh) == [] && qs.Get(ThumbnailHigh) == [] && qs.Get(RenderLow) == [];
      assert qs.Get(LinksQueue) == [];
    case ThumbnailLow =>
      assert qs.Get(RenderHigh) == [] && qs.Get(ThumbnailHigh) == [] && qs.Get(RenderLow) == [];
      assert qs.Get(LinksQueue) == [] && qs.Get(LoadQueue) == [];
    case FontsQueue =>
      assert qs.Get(RenderHigh) == [] && qs.Get(ThumbnailHigh) == [] && qs.Get(RenderLow) == [];
      assert qs.Get(LinksQueue) == [] && qs.Get(LoadQueue) == [] && qs.Get(ThumbnailLow) == [];
    case PrintQueue =>
      assert qs.Get(RenderHigh) == [] && qs.Get(ThumbnailHigh) == [] && qs.Get(RenderLow) == [];
      assert qs.Get(LinksQueue) == [] && qs.Get(LoadQueue) == [] && qs.Get(ThumbnailLow) == [];
      assert qs.Get(FontsQueue) == [];
  }

  /** Whenever some worker queue is non-empty, some queue is the one the
      ladder serves next, and no two queues are. */
  lemma FirstNonEmptyExists(qs: Queues)
    ensures !NoJobsAvailable(qs) ==> exists id :: IsFirstNonEmpty(qs, id)
    ensures forall a, b :: IsFirstNonEmpty(qs, a) && IsFirstNonEmpty(qs, b) ==> a == b
  {
    if !NoJobsAvailable(qs) {
      var id;
      if qs.renderHigh != [] { id := RenderHigh; }
      else if qs.thumbnailHigh != [] { id := ThumbnailHigh; }
      else if qs.renderLow != [] { id := RenderLow; }
      else if qs.links != [] { id := LinksQueue; }
      else if qs.load != [] { id := LoadQueue; }
      else if qs.thumbnailLow != [] { id := ThumbnailLow; }
      else if qs.fonts != [] { id := FontsQueue; }
      else { id := PrintQueue; }
      assert IsFirstNonEmpty(qs, id);
    }
  }

  /** What the worker pops out of well-placed queues is a worker job, and
      the queues stay well placed. */
  lemma SearchYieldsWorkerJob(qs: Queues)
    requires WellPlaced(qs)
    ensures SearchForJobs(qs).job.Some? ==> !SearchForJobs(qs).job.value.async
    ensures WellPlaced(SearchForJobs(qs).queues)
  {
    if !NoJobsAvailable(qs) {
      FirstNonEmptyExists(qs);
      var id :| IsFirstNonEmpty(qs, id);
      SearchFollowsLadder(qs, id);
      assert AllHeld(id, qs.Get(id));
      assert Holds(id, qs.Get(id)[0]);
      PlacedAfterPop(qs, id);
    }
  }

  /** add_job_to_queue_locked and add_job_to_async_queue (they differ only in
      waking the worker): take a reference and append the job at the tail. */
  function Enqueue(s: State, id: QueueId, j: Job): (r: State)
    ensures r.queues.Get(id) == s.queues.Get(id) + [j]
    ensures forall o :: o != id ==> r.queues.Get(o) == s.queues.Get(o)
    ensures r.queues.Total() == s.queues.Total() + multiset{j}
    ensures r.refs == s.refs + multiset{j}
    ensures r == s.(queues := r.queues, refs := r.refs)
    ensures WellPlaced(s.queues) && Holds(id, j) ==> WellPlaced(r.queues)
  {
    var q := PushTail(s.queues.Get(id), j);
    TotalAfterPush(s.queues, id, j);
    assert WellPlaced(s.queues) && Holds(id, j) ==> WellPlaced(s.queues.Set(id, q)) by {
      if WellPlaced(s.queues) && Holds(id, j) {
        assert AllHeld(id, s.queues.Get(id));
        PlacedAfterSet(s.queues, id, q);
      }
    }
    s.(queues := s.queues.Set(id, PushTail(s.queues.Get(id), j)), refs := s.refs + multiset{j})
  }

  datatype Outcome = Outcome(ok: bool, state: State)

  /** remove_job_from_queue_locked: delete the first occurrence of the job
      from one queue and drop the reference the queue held; report whether
      the job was there. */
  function RemoveFromQueue(s: State, id: QueueId, j: Job): (r: Outcome)
    ensures r.ok <==> j in s.queues.Get(id)
    ensures !r.ok ==> r.state == s
    ensures r.ok ==> r.state.queues == s.queues.Set(id, Remove(s.queues.Get(id), j).rest)
    ensures r.ok ==> r.state.queues.Total() == s.queues.Total() - multiset{j}
    ensures r.ok ==> r.state.refs == s.refs - multiset{j}
    ensures r.state == s.(queues := r.state.queues, refs := r.state.refs)
    ensures WellPlaced(s.queues) ==> WellPlaced(r.state.queues)
  {
    var d := Remove(s.queues.Get(id), j);
    if d.found then
      TotalAfterDelete(s.queues, id, d.rest, j);
      assert WellPlaced(s.queues) ==> WellPlaced(s.queues.Set(id, d.rest)) by {
        if WellPlaced(s.queues) {
          assert AllHeld(id, s.queues.Get(id));
          HeldSubset(id, s.queues.Get(id), d.rest);
          PlacedAfterSet(s.queues, id, d.rest);
        }
      }
      Outcome(true, s.(queues := s.queues.Set(id, d.rest), refs := s.refs - multiset{j}))
    else
      Outcome(false, s)
  }

  /** handle_job, minus the work itself: take a reference; an asynchronous
      job raises the busy flag and has its "finished" signal wired to
      job_finished_cb; a worker job hands that reference to an idle callback
      that will announce its completion on the main loop. */
  function HandleJob(s: State, j: Job): (r: State)
    requires Dispatchable(j)
    ensures r.queues == s.queues
    ensures r.refs == s.refs + multiset{j}
    ensures j.async ==> r.asyncRendering && r.inFlight == Some(j) && r.pending == s.pending
    ensures !j.async ==> r == s.(pending := s.pending + [j], refs := r.refs)
  {
    var s1 := s.(refs := s.refs + multiset{j});
    if j.async then s1.(asyncRendering := true, inFlight := Some(j))
    else s1.(pending := s1.pending + [j])
  }

  /** The job ev_job_queue_run_next would start: the head of the high
      asynchronous queue, else the head of the low one. */
  function NextAsync(qs: Queues): Option<Job> {
    if qs.asyncHigh != [] then Some(qs.asyncHigh[0])
    else if qs.asyncLow != [] then Some(qs.asyncLow[0])
    else None
  }

  /** ev_job_queue_run_next: start the next asynchronous render job, high
      tier first. The queue's reference becomes the in-flight reference, so
      the references held are unchanged. */
  function RunNext(s: State): (r: State)
    requires WellPlaced(s.queues)
    ensures NextAsync(s.queues).None? ==> r == s
    ensures NextAsync(s.queues).Some? ==> r.asyncRendering && r.inFlight == NextAsync(s.queues)
    ensures s.queues.asyncHigh != [] ==>
      r.queues == s.queues.Set(AsyncRenderHigh, s.queues.asyncHigh[1..])
    ensures s.queues.asyncHigh == [] && s.queues.asyncLow != [] ==>
      r.queues == s.queues.Set(AsyncRenderLow, s.queues.asyncLow[1..])
    ensures r.refs == s.refs && r.pending == s.pending
    ensures WellPlaced(r.queues)
  {
    var high := TryPop(s.queues, AsyncRenderHigh);
    var sel := if high.job.Some? then high else TryPop(s.queues, AsyncRenderLow);
    match sel.job
    case None => s
    case Some(j) =>
      var id := if high.job.Some? then AsyncRenderHigh else AsyncRenderLow;
      assert AllHeld(id, s.queues.Get(id));
      PlacedAfterPop(s.queues, id);
      RefRoundTrip(s.refs, j);
      var h := HandleJob(s.(queues := sel.queues), j);
      h.(refs := h.refs - multiset{j})
  }

  /** job_finished_cb, reached when the in-flight asynchronous job emits
      "finished": drop its reference, clear the busy flag and start the next
      one. A job whose signal the scheduler never wired is not its business. */
  function JobFinished(s: State, j: Job): (r: State)
    requires WellPlaced(s.queues)
    ensures s.inFlight != Some(j) ==> r == s
    ensures s.inFlight == Some(j) ==> r.refs == s.refs - multiset{j} && r.pending == s.pending
    ensures s.inFlight == Some(j) ==> r.inFlight == NextAsync(s.queues)
    ensures s.inFlight == Some(j) ==> (r.asyncRendering <==> NextAsync(s.queues).Some?)
    ensures s.inFlight == Some(j) && NextAsync(s.queues).None? ==> r.queues == s.queues
    ensures s.inFlight == Some(j) && s.queues.asyncHigh != [] ==>
      r.queues == s.queues.Set(AsyncRenderHigh, s.queues.asyncHigh[1..])
    ensures s.inFlight == Some(j) && s.queues.asyncHigh == [] && s.queues.asyncLow != [] ==>
      r.queues == s.queues.Set(AsyncRenderLow, s.queues.asyncLow[1..])
  {
    if s.inFlight == Some(j) then
      RunNext(s.(refs := s.refs - multiset{j}, asyncRendering := false, inFlight := None))
    else s
  }

  /** notify_finished on the main loop, then the idle's destroy notifier:
      the oldest pending completion is announced and its reference dropped. */
  function NotifyFinished(s: State): (r: State)
    ensures s.pending == [] ==> r == s
    ensures s.pending != [] ==> s.pending == [s.pending[0]] + r.pending
    ensures s.pending != [] ==> r.refs == s.refs - multiset{s.pending[0]}
    ensures r.queues == s.queues && r.asyncRendering == s.asyncRendering && r.inFlight == s.inFlight
  {
    if s.pending == [] then s
    else s.(pending := s.pending[1..], refs := s.refs - multiset{s.pending[0]})
  }

  datatype Ran = Ran(job: Option<Job>, state: State)

  /** One turn of ev_render_thread once it holds the lock and is not left
      waiting: take the job the ladder selects, handle it, drop the
      reference the queue gave it. With every worker queue empty the turn
      does nothing. */
  function WorkerStep(s: State): (r: Ran)
    requires WellPlaced(s.queues)
    ensures r.job.None? <==> NoJobsAvailable(s.queues)
    ensures r.job.None? ==> r.state == s
    ensures r.job == SearchForJobs(s.queues).job
    ensures r.state.queues == SearchForJobs(s.queues).queues
    ensures r.job.Some? ==> r.state.pending == s.pending + [r.job.value]
    ensures r.state.refs == s.refs
    ensures r.state.asyncRendering == s.asyncRendering && r.state.inFlight == s.inFlight
    ensures WellPlaced(r.state.queues)
  {
    var sel := SearchForJobs(s.queues);
    match sel.job
    case None => Ran(None, s)
    case Some(j) =>
      SearchYieldsWorkerJob(s.queues);
      var h := HandleJob(s.(queues := sel.queues), j);
      Ran(Some(j), h.(refs := h.refs - multiset{j}))
  }

  /** ev_job_queue_add_job: append the job to the queue find_queue picks;
      an asynchronous job is started at once unless one is already running. */
  function AddJob(s: State, j: Job, p: Priority): (r: State)
    requires Classifiable(j)
    requires WellPlaced(s.queues)
    ensures r.refs == s.refs + multiset{j} && r.pending == s.pending
    ensures !j.async || s.asyncRendering ==>
      && r.queues.Get(FindQueue(j, p)) == s.queues.Get(FindQueue(j, p)) + [j]
      && (forall o :: o != FindQueue(j, p) ==> r.queues.Get(o) == s.queues.Get(o))
      && r.asyncRendering == s.asyncRendering && r.inFlight == s.inFlight
    ensures j.async && !s.asyncRendering ==> r.asyncRendering && r.inFlight.Some?
    ensures j.async && !s.asyncRendering && s.queues.asyncHigh == [] && s.queues.asyncLow == [] ==>
      r.inFlight == Some(j) && r.queues == s.queues
    ensures WellPlaced(r.queues)
  {
    var id := FindQueue(j, p);
    var s1 := Enqueue(s, id, j);
    if j.async && !s1.asyncRendering then
      var r := RunNext(s1);
      assert s.queues.asyncHigh == [] && s.queues.asyncLow == [] ==>
        r.inFlight == Some(j) && r.queues == s.queues by {
        if s.queues.asyncHigh == [] && s.queues.asyncLow == [] {
          StartsAtOnce(s, j, id, s1, r);
        }
      }
      r
    else s1
  }

  /** An asynchronous job queued in an idle dispatcher with nothing waiting
      is itself the one run_next starts, and it leaves its queue again. */
  lemma StartsAtOnce(s: State, j: Job, id: QueueId, s1: State, r: State)
    requires IsAsyncQueue(id) && s.queues.asyncHigh == [] && s.queues.asyncLow == []
    requires s1.queues.Get(id) == s.queues.Get(id) + [j]
    requires forall o :: o != id ==> s1.queues.Get(o) == s.queues.Get(o)
    requires WellPlaced(s1.queues) && r == RunNext(s1)
    ensures r.inFlight == Some(j) && r.queues == s.queues
  {
    assert s1.queues.Get(id) == [j];
    forall o ensures r.queues.Get(o) == s.queues.Get(o) {
      if o != id && id == AsyncRenderLow {
        assert s1.queues.asyncHigh == [];
      }
    }
    QueuesEqual(r.queues, s.queues);
  }

  /** move_job and move_job_async (they differ only in locking): take the
      job out of `from` and, when it was there, append it to `to`. The
      reference the removal drops is the one the append takes back, and the
      extra reference held around the move is dropped again at its end, so
      the references end as they began. */
  function MoveJob(s: State, j: Job, from: QueueId, to: QueueId): (r: Outcome)
    requires from != to
    ensures r.ok <==> j in s.queues.Get(from)
    ensures !r.ok ==> r.state == s
    ensures r.ok ==> r.state.queues.Get(from) == Remove(s.queues.Get(from), j).rest
    ensures r.ok ==> r.state.queues.Get(to) == s.queues.Get(to) + [j]
    ensures forall o :: o != from && o != to ==> r.state.queues.Get(o) == s.queues.Get(o)
    ensures r.ok ==> r.state.queues.Total() == s.queues.Total()
    ensures r.state == s.(queues := r.state.queues)
    ensures WellPlaced(s.queues) && Holds(to, j) ==> WellPlaced(r.state.queues)
  {
    var removal := Remove(s.queues.Get(from), j);
    if !removal.found then Outcome(false, s)
    else
      var taken := s.queues.Set(from, removal.rest);
      var moved := taken.Set(to, taken.Get(to) + [j]);
      MoveAccounting(s.queues, j, from, to, removal.rest);
      Outcome(true, s.(queues := moved))
  }

  /** The queued jobs and their placement across one move. */
  lemma MoveAccounting(qs: Queues, j: Job, from: QueueId, to: QueueId, rest: seq<Job>)
    requires from != to && j in qs.Get(from)
    requires multiset(rest) == multiset(qs.Get(from)) - multiset{j}
    ensures var taken := qs.Set(from, rest);
      && taken.Set(to, taken.Get(to) + [j]).Total() == qs.Total()
      && (WellPlaced(qs) && Holds(to, j) ==> WellPlaced(taken.Set(to, taken.Get(to) + [j])))
  {
    MoveTotal(qs, j, from, to, rest);
    if WellPlaced(qs) && Holds(to, j) {
      MovePlaced(qs, j, from, to, rest);
    }
  }

  /** A move leaves the queued jobs as they were. */
  lemma MoveTotal(qs: Queues, j: Job, from: QueueId, to: QueueId, rest: seq<Job>)
    requires j in qs.Get(from)
    requires multiset(rest) == multiset(qs.Get(from)) - multiset{j}
    ensures var taken := qs.Set(from, rest);
      taken.Set(to, taken.Get(to) + [j]).Total() == qs.Total()
  {
    var taken := qs.Set(from, rest);
    TotalAfterDelete(qs, from, rest, j);
    TotalAfterPush(taken, to, j);
    InQueueInTotal(qs, from, j);
    PutBack(qs.Total(), taken.Total(), taken.Set(to, taken.Get(to) + [j]).Total(), j);
  }

  /** A move into a queue meant for the job keeps every job placed. */
  lemma MovePlaced(qs: Queues, j: Job, from: QueueId, to: QueueId, rest: seq<Job>)
    requires WellPlaced(qs) && Holds(to, j)
    requires multiset(rest) <= multiset(qs.Get(from))
    ensures var taken := qs.Set(from, rest);
      WellPlaced(taken.Set(to, taken.Get(to) + [j]))
  {
    var taken := qs.Set(from, rest);
    assert AllHeld(from, qs.Get(from));
    HeldSubset(from, qs.Get(from), rest);
    PlacedAfterSet(qs, from, rest);
    assert AllHeld(to, taken.Get(to));
    PlacedAfterSet(taken, to, taken.Get(to) + [j]);
  }

  /** ev_job_queue_update_job: move the job from the other tier of its kind
      to the tier of `p` (for a low priority, from the high tier to the low
      one; for a high priority, the reverse). */
  function UpdateJob(s: State, j: Job, p: Priority): (r: Outcome)
    requires Reprioritizable(j)
    ensures r.ok <==> j in s.queues.Get(FindQueue(j, Opposite(p)))
    ensures !r.ok ==> r.state == s
    ensures r.ok ==> r.state.queues.Get(FindQueue(j, p)) == s.queues.Get(FindQueue(j, p)) + [j]
    ensures r.ok ==> r.state.queues.Get(FindQueue(j, Opposite(p)))
                     == Remove(s.queues.Get(FindQueue(j, Opposite(p))), j).rest
    ensures forall o :: o != FindQueue(j, p) && o != FindQueue(j, Opposite(p)) ==>
                        r.state.queues.Get(o) == s.queues.Get(o)
    ensures r.state == s.(queues := r.state.queues)
    ensures !j.async ==> r.state.queues.asyncHigh == s.queues.asyncHigh
                         && r.state.queues.asyncLow == s.queues.asyncLow
    ensures WellPlaced(s.queues) ==> WellPlaced(r.state.queues)
  {
    var from := FindQueue(j, Opposite(p));
    var to := FindQueue(j, p);
    assert !j.async ==> !IsAsyncQueue(from) && !IsAsyncQueue(to);
    assert s.queues.asyncHigh == s.queues.Get(AsyncRenderHigh) && s.queues.asyncLow == s.queues.Get(AsyncRenderLow);
    MoveJob(s, j, from, to)
  }

  /** The job sits in some queue meant for it. */
  ghost predicate Queued(qs: Queues, j: Job) {
    exists id :: Holds(id, j) && j in qs.Get(id)
  }

  /** The queues meant for a job are the one or two find_queue names for it. */
  lemma HoldsIsFound(id: QueueId, j: Job)
    requires Classifiable(j)
    ensures Holds(id, j) <==> id == FindQueue(j, High) || id == FindQueue(j, Low)
  {
  }

  /** Where remove_job looks is exactly where a job can be queued. */
  lemma QueuedIn(qs: Queues, j: Job)
    requires Classifiable(j)
    ensures Queued(qs, j) <==> j in qs.Get(FindQueue(j, High)) || j in qs.Get(FindQueue(j, Low))
    ensures forall o :: Holds(o, j) ==> o == FindQueue(j, High) || o == FindQueue(j, Low)
  {
    forall o | Holds(o, j) ensures o == FindQueue(j, High) || o == FindQueue(j, Low) {
      HoldsIsFound(o, j);
    }
    HoldsIsFound(FindQueue(j, High), j);
    HoldsIsFound(FindQueue(j, Low), j);
  }

  /** ev_job_queue_remove_job: look for the job in the high tier, then the
      low tier, of its kind (the single queue of a one-tier kind), stopping
      at the first hit; remove it there and drop the queue's reference. */
  function RemoveJob(s: State, j: Job): (r: Outcome)
    requires Classifiable(j)
    ensures r.ok <==> Queued(s.queues, j)
    ensures !r.ok ==> r.state == s
    ensures r.ok ==> r.state.queues.Total() == s.queues.Total() - multiset{j}
    ensures r.ok ==> r.state.refs == s.refs - multiset{j}
    ensures forall o :: !Holds(o, j) ==> r.state.queues.Get(o) == s.queues.Get(o)
    ensures j in s.queues.Get(FindQueue(j, High)) ==>
      r.state.queues == s.queues.Set(FindQueue(j, High), Remove(s.queues.Get(FindQueue(j, High)), j).rest)
    ensures j !in s.queues.Get(FindQueue(j, High)) && j in s.queues.Get(FindQueue(j, Low)) ==>
      r.state.queues == s.queues.Set(FindQueue(j, Low), Remove(s.queues.Get(FindQueue(j, Low)), j).rest)
    ensures r.state == s.(queues := r.state.queues, refs := r.state.refs)
    ensures WellPlaced(s.queues) ==> WellPlaced(r.state.queues)
  {
    QueuedIn(s.queues, j);
    var first := RemoveFromQueue(s, FindQueue(j, High), j);
    if first.ok || !Tiered(j.kind) then first
    else RemoveFromQueue(s, FindQueue(j, Low), j)
  }

  /** The worker runs the head of the highest-priority non-empty worker
      queue, and that queue loses exactly its head. */
  lemma WorkerFollowsLadder(s: State, id: QueueId)
    requires WellPlaced(s.queues)
    requires IsFirstNonEmpty(s.queues, id)
    ensures WorkerStep(s).job == Some(s.queues.Get(id)[0])
    ensures WorkerStep(s).state.queues == s.queues.Set(id, s.queues.Get(id)[1..])
    ensures WorkerStep(s).state.pending == s.pending + [s.queues.Get(id)[0]]
  {
    SearchFollowsLadder(s.queues, id);
  }

  /** find_queue names exactly the queue a job belongs in: no other queue
      accepts it. */
  lemma FindQueueExact(j: Job, p: Priority, id: QueueId)
    requires Classifiable(j)
    ensures Accepts(id, j, p) <==> id == FindQueue(j, p)
  {
  }

  /** The jobs find_queue classifies are exactly those some queue accepts;
      every other job reaches the failed assertion. */
  lemma ClassifiableExactly(j: Job, p: Priority)
    ensures Classifiable(j) <==> exists id :: Accepts(id, j, p)
  {
    if Classifiable(j) {
      assert Accepts(FindQueue(j, p), j, p);
    }
  }

  /** Priority only matters to render and thumbnail jobs. */
  lemma PriorityIgnoredForOneTierKinds(j: Job)
    requires Classifiable(j) && !Tiered(j.kind)
    ensures FindQueue(j, High) == FindQueue(j, Low)
  {
  }

  /** Strict priority: while a worker queue is non-empty, the worker leaves
      every lower-priority worker queue untouched. */
  lemma NoSkip(s: State, a: QueueId, b: QueueId)
    requires WellPlaced(s.queues)
    requires !IsAsyncQueue(a) && !IsAsyncQueue(b) && Rank(a) < Rank(b)
    requires s.queues.Get(a) != []
    ensures WorkerStep(s).state.queues.Get(b) == s.queues.Get(b)
  {
    FirstNonEmptyExists(s.queues);
    var id :| IsFirstNonEmpty(s.queues, id);
    WorkerFollowsLadder(s, id);
    assert Rank(id) <= Rank(a);
  }
}

=== FILE: jobs.dfy ===
/** The jobs the scheduler handles, reduced to what the scheduler looks at:
    which kind of job it is (the EV_IS_JOB_* type checks), whether it is an
    asynchronous job that must run on the main thread (the `async` flag), and
    an identity standing for the object address the queues compare. */
module Jobs {

  /** The job classes the scheduler recognises; `Unknown` stands for any other
      job class, which every type test in the scheduler rejects. */
  datatype Kind = Render | Thumbnail | Load | Links | Fonts | Print | Unknown

  datatype Priority = High | Low

  /** Two jobs are the same job exactly when they are the same value: the
      identity plays the role of the object address. */
  datatype Job = Job(id: nat, kind: Kind, async: bool)

  /** Only render and thumbnail jobs have two priority tiers. */
  predicate Tiered(k: Kind) {
    k == Render || k == Thumbnail
  }

  /** The jobs for which the scheduler finds a queue; every other job is a
      failed assertion. Only render jobs may be asynchronous. */
  predicate Classifiable(j: Job) {
    if j.async then j.kind == Render else j.kind != Unknown
  }

  /** The jobs handle_job accepts: an asynchronous job must be a render job. */
  predicate Dispatchable(j: Job) {
    j.async ==> j.kind == Render
  }

  /** The jobs whose priority can be changed; any other job is a failed
      assertion. */
  predicate Reprioritizable(j: Job) {
    if j.async then j.kind == Render else Tiered(j.kind)
  }
}

=== FILE: scenarios.dfy ===
/** Concrete runs of the scheduler from start-up. */
module Scenarios {
  import opened Jobs
  import opened Fifo
  import opened JobQueue
  import opened Invariants

  /** A print job submitted before a high-priority render job still runs
      after it, and their completions are announced in that order. */
  lemma RenderOvertakesPrint()
    ensures var printJob := Job(1, Print, false);
      var render := Job(2, Render, false);
      var s := AddJob(AddJob(Init(), printJob, Low), render, High);
      var first := WorkerStep(s);
      var second := WorkerStep(first.state);
      && first.job == Some(render)
      && second.job == Some(printJob)
      && second.state.pending == [render, printJob]
      && NoJobsAvailable(second.state.queues)
  {
    var printJob := Job(1, Print, false);
    var render := Job(2, Render, false);
    PrintThenRender(printJob, render);
    var s := AddJob(AddJob(Init(), printJob, Low), render, High);
    RenderFirst(s, printJob, render);
    PrintSecond(WorkerStep(s).state, printJob, render);
  }

  /** Submitting a print job and then a render job fills one queue each. */
  lemma PrintThenRender(printJob: Job, render: Job)
    requires printJob.kind == Print && !printJob.async
    requires render.kind == Render && !render.async
    ensures var s := AddJob(AddJob(Init(), printJob, Low), render, High);
      && s.queues == Init().queues.Set(PrintQueue, [printJob]).Set(RenderHigh, [render])
      && s.pending == []
      && WellPlaced(s.queues)
  {
    InitValid();
    var s1 := AddJob(Init(), printJob, Low);
    assert s1.queues.Get(PrintQueue) == [printJob];
    var s := AddJob(s1, render, High);
    assert s.queues.Get(RenderHigh) == [render];
    QueuesEqual(s.queues, Init().queues.Set(PrintQueue, [printJob]).Set(RenderHigh, [render]));
  }

  /** The worker's first turn takes the render job although it came second. */
  lemma RenderFirst(s: State, printJob: Job, render: Job)
    requires s.queues == Init().queues.Set(PrintQueue, [printJob]).Set(RenderHigh, [render])
    requires s.pending == [] && WellPlaced(s.queues)
    ensures var first := WorkerStep(s);
      && first.job == Some(render)
      && first.state.pending == [render]
      && first.state.queues == Init().queues.Set(PrintQueue, [printJob])
      && WellPlaced(first.state.queues)
  {
    assert s.queues.Get(RenderHigh) == [render];
    assert IsFirstNonEmpty(s.queues, RenderHigh);
    WorkerFollowsLadder(s, RenderHigh);
    var first := WorkerStep(s);
    QueuesEqual(first.state.queues, Init().queues.Set(PrintQueue, [printJob]));
  }

  /** The second turn takes the print job and leaves every queue empty. */
  lemma PrintSecond(s: State, printJob: Job, render: Job)
    requires s.queues == Init().queues.Set(PrintQueue, [printJob])
    requires s.pending == [render] && WellPlaced(s.queues)
    ensures var second := WorkerStep(s);
      && second.job == Some(printJob)
      && second.state.pending == [render, printJob]
      && NoJobsAvailable(second.state.queues)
  {
    assert s.queues.Get(PrintQueue) == [printJob];
    assert IsFirstNonEmpty(s.queues, PrintQueue);
    WorkerFollowsLadder(s, PrintQueue);
    var second := WorkerStep(s);
    QueuesEqual(second.state.queues, Init().queues);
  }

  /** Two asynchronous render jobs: the first starts as soon as it is
      submitted, the second waits in its queue until the first finishes,
      and once both are done nothing runs and no reference is held. */
  lemma AsyncJobsRunOneAtATime()
    ensures var a := Job(3, Render, true);
      var b := Job(4, Render, true);
      var s1 := AddJob(Init(), a, Low);
      var s2 := AddJob(s1, b, High);
      var s3 := JobFinished(s2, a);
      var s4 := JobFinished(s3, b);
      && s1.asyncRendering && s1.inFlight == Some(a)
      && s2.inFlight == Some(a) && s2.queues.asyncHigh == [b]
      && s3.inFlight == Some(b) && s3.queues.asyncHigh == []
      && !s4.asyncRendering && s4.inFlight == None && s4.refs == multiset{}
  {
    var a := Job(3, Render, true);
    var b := Job(4, Render, true);
    SecondAsyncWaits(a, b);
    var s2 := AddJob(AddJob(Init(), a, Low), b, High);
    FinishingHandsOver(s2, a, b);
  }

  /** While one asynchronous job runs, a second one submitted waits. */
  lemma SecondAsyncWaits(a: Job, b: Job)
    requires a.async && a.kind == Render && b.async && b.kind == Render
    ensures var s1 := AddJob(Init(), a, Low);
      var s2 := AddJob(s1, b, High);
      && s1.asyncRendering && s1.inFlight == Some(a) && s1.queues == Init().queues
      && s2.asyncRendering && s2.inFlight == Some(a) && s2.pending == []
      && s2.queues == Init().queues.Set(AsyncRenderHigh, [b])
      && s2.refs == multiset{a, b}
  {
    FirstAsyncStarts(a);
    SecondWaits(AddJob(Init(), a, Low), a, b);
  }

  /** With nothing running, an asynchronous job starts at once. */
  lemma FirstAsyncStarts(a: Job)
    requires a.async && a.kind == Render
    ensures var s1 := AddJob(Init(), a, Low);
      && s1.asyncRendering && s1.inFlight == Some(a) && s1.queues == Init().queues
      && s1.pending == [] && s1.refs == multiset{a}
  {
    InitValid();
    AddJobValid(Init(), a, Low);
    var s1 := AddJob(Init(), a, Low);
    assert s1.refs == multiset{a};
  }

  /** With one asynchronous job running, the next one is queued. */
  lemma SecondWaits(s1: State, a: Job, b: Job)
    requires b.async && b.kind == Render
    requires s1.asyncRendering && s1.inFlight == Some(a) && s1.queues == Init().queues
    requires s1.pending == [] && s1.refs == multiset{a}
    ensures var s2 := AddJob(s1, b, High);
      && s2.asyncRendering && s2.inFlight == Some(a) && s2.pending == []
      && s2.queues == Init().queues.Set(AsyncRenderHigh, [b])
      && s2.refs == multiset{a, b}
  {
    assert WellPlaced(s1.queues) by { InitValid(); }
    var s2 := AddJob(s1, b, High);
    assert FindQueue(b, High) == AsyncRenderHigh;
    assert s2.queues.Get(AsyncRenderHigh) == [b];
    QueuesEqual(s2.queues, Init().queues.Set(AsyncRenderHigh, [b]));
  }

  /** When the running job finishes the waiting one starts; when that one
      finishes the dispatcher falls idle holding nothing. */
  lemma FinishingHandsOver(s2: State, a: Job, b: Job)
    requires s2.asyncRendering && s2.inFlight == Some(a) && s2.pending == []
    requires s2.queues == Init().queues.Set(AsyncRenderHigh, [b])
    requires s2.refs == multiset{a, b}
    requires b.async && b.kind == Render && a != b
    ensures var s3 := JobFinished(s2, a);
      var s4 := JobFinished(s3, b);
      && s3.inFlight == Some(b) && s3.queues.asyncHigh == []
      && !s4.asyncRendering && s4.inFlight == None && s4.refs == multiset{}
  {
    assert s2.queues.Get(AsyncRenderLow) == [];
    assert WellPlaced(s2.queues) by {
      forall id ensures AllHeld(id, s2.queues.Get(id)) {
        if id != AsyncRenderHigh { assert s2.queues.Get(id) == []; }
      }
    }
    var s3 := JobFinished(s2, a);
    assert NextAsync(s2.queues) == Some(b);
    assert s3.queues == s2.queues.Set(AsyncRenderHigh, []);
    assert s3.queues.Get(AsyncRenderHigh) == [] && s3.queues.Get(AsyncRenderLow) == [];
    assert s3.refs == multiset{b};
  }

  /** A render job raised from the low to the high tier queues behind the
      high-priority render job already there, and ahead of nothing else. */
  lemma RaisedJobQueuesBehindHighTier()
    ensures var h := Job(5, Render, false);
      var l := Job(6, Render, false);
      var s := AddJob(AddJob(Init(), h, High), l, Low);
      var u := UpdateJob(s, l, High);
      && u.ok
      && u.state.queues.renderHigh == [h, l]
      && u.state.queues.renderLow == []
      && WorkerStep(u.state).job == Some(h)
  {
    var h := Job(5, Render, false);
    var l := Job(6, Render, false);
    OneHighOneLow(h, l);
    RaiseBehind(AddJob(AddJob(Init(), h, High), l, Low), h, l);
  }

  /** Submitting one render job at each priority fills one queue of each tier. */
  lemma OneHighOneLow(h: Job, l: Job)
    requires h.kind == Render && !h.async && l.kind == Render && !l.async
    ensures var s := AddJob(AddJob(Init(), h, High), l, Low);
      && s.queues == Init().queues.Set(RenderHigh, [h]).Set(RenderLow, [l])
      && WellPlaced(s.queues)
  {
    InitValid();
    var s1 := AddJob(Init(), h, High);
    assert s1.queues.Get(RenderHigh) == [h];
    var s := AddJob(s1, l, Low);
    assert s.queues.Get(RenderLow) == [l];
    QueuesEqual(s.queues, Init().queues.Set(RenderHigh, [h]).Set(RenderLow, [l]));
  }

  /** Raising the low-tier job appends it behind the high-tier one. */
  lemma RaiseBehind(s: State, h: Job, l: Job)
    requires h.kind == Render && !h.async && l.kind == Render && !l.async && h != l
    requires s.queues == Init().queues.Set(RenderHigh, [h]).Set(RenderLow, [l])
    requires WellPlaced(s.queues)
    ensures var u := UpdateJob(s, l, High);
      && u.ok
      && u.state.queues.renderHigh == [h, l]
      && u.state.queues.renderLow == []
      && WorkerStep(u.state).job == Some(h)
  {
    RaiseMoves(s, h, l);
    HeadOfHighTierRuns(UpdateJob(s, l, High).state, h, l);
  }

  /** The queue contents right after raising the low-tier job. */
  lemma RaiseMoves(s: State, h: Job, l: Job)
    requires h.kind == Render && !h.async && l.kind == Render && !l.async && h != l
    requires s.queues == Init().queues.Set(RenderHigh, [h]).Set(RenderLow, [l])
    requires WellPlaced(s.queues)
    ensures var u := UpdateJob(s, l, High);
      && u.ok
      && u.state.queues.Get(RenderHigh) == [h, l]
      && u.state.queues.Get(RenderLow) == []
      && WellPlaced(u.state.queues)
  {
    assert s.queues.Get(RenderLow) == [l] && s.queues.Get(RenderHigh) == [h];
    assert FindQueue(l, Opposite(High)) == RenderLow && FindQueue(l, High) == RenderHigh;
    assert Remove([l], l).rest == [];
  }

  /** A worker turn takes the head of a non-empty high-priority render queue. */
  lemma HeadOfHighTierRuns(s: State, h: Job, l: Job)
    requires s.queues.Get(RenderHigh) == [h, l] && WellPlaced(s.queues)
    ensures WorkerStep(s).job == Some(h)
  {
    assert IsFirstNonEmpty(s.queues, RenderHigh);
    WorkerFollowsLadder(s, RenderHigh);
  }

  /** A job cancelled while queued is never run and its completion is never
      announced; the scheduler lets go of it at once. */
  lemma CancelledJobNeverRuns()
    ensures var j := Job(7, Links, false);
      var c := RemoveJob(AddJob(Init(), j, High), j);
      && c.ok
      && c.state.refs == multiset{}
      && WorkerStep(c.state).job == None
      && WorkerStep(c.state).state.pending == []
  {
    var j := Job(7, Links, false);
    var s := AddJob(Init(), j, High);
    assert s.queues.links == [j];
    var c := RemoveJob(s, j);
    assert c.state.queues.links == [];
  }
}

=== FILE: signals.dfy ===
/** The asynchronous half of the scheduler with its "finished" handlers made
    explicit. handle_job connects job_finished_cb to the job's "finished"
    signal on every dispatch and nothing ever disconnects it, so a job that is
    dispatched twice calls job_finished_cb twice when it next finishes. This
    module models the code as written next to the behaviour the rest of the
    model follows, where each dispatch is answered by exactly one callback. */
module Signals {
  import opened Jobs
  import Fifo
  import JobQueue

  /** The two asynchronous queues, the `async_rendering` flag, the connected
      handlers (one entry per connection), the dispatched jobs whose work has
      not yet finished, and the references the scheduler took and released.
      A job released more often than taken was released by a reference the
      scheduler never owned. */
  datatype Dispatcher = Dispatcher(
    high: seq<Job>,
    low: seq<Job>,
    rendering: bool,
    wired: multiset<Job>,
    running: multiset<Job>,
    taken: multiset<Job>,
    dropped: multiset<Job>)

  function Idle(): Dispatcher {
    Dispatcher([], [], false, multiset{}, multiset{}, multiset{}, multiset{})
  }

  /** The references to `j` the scheduler holds; below zero once it has
      released more than it took. */
  function Held(d: Dispatcher, j: Job): int {
    d.taken[j] as int - d.dropped[j] as int
  }

  /** g_object_ref by the scheduler. */
  function Ref(d: Dispatcher, j: Job): (r: Dispatcher)
    ensures Held(r, j) == Held(d, j) + 1
    ensures forall k :: k != j ==> Held(r, k) == Held(d, k)
  {
    d.(taken := d.taken + multiset{j})
  }

  /** g_object_unref by the scheduler. */
  function Unref(d: Dispatcher, j: Job): (r: Dispatcher)
    ensures Held(r, j) == Held(d, j) - 1
    ensures forall k :: k != j ==> Held(r, k) == Held(d, k)
  {
    d.(dropped := d.dropped + multiset{j})
  }

  /** handle_job on an asynchronous job: raise the flag, connect one more
      handler and start the work. Its reference and run_next's release
      cancel out, so the counts do not move. */
  function Start(d: Dispatcher, j: Job): (r: Dispatcher)
    ensures r.rendering && r.wired == d.wired + multiset{j} && r.running == d.running + multiset{j}
    ensures r.high == d.high && r.low == d.low
    ensures forall k :: Held(r, k) == Held(d, k)
  {
    d.(rendering := true, wired := d.wired + multiset{j}, running := d.running + multiset{j})
  }

  /** ev_job_queue_run_next: start the head of the high queue, else of the
      low queue, else do nothing. */
  function StartNext(d: Dispatcher): (r: Dispatcher)
    ensures d.high == [] && d.low == [] ==> r == d
    ensures d.high != [] ==> r == Start(d.(high := d.high[1..]), d.high[0])
    ensures d.high == [] && d.low != [] ==> r == Start(d.(low := d.low[1..]), d.low[0])
  {
    if d.high != [] then Start(d.(high := d.high[1..]), d.high[0])
    else if d.low != [] then Start(d.(low := d.low[1..]), d.low[0])
    else d
  }

  /** ev_job_queue_add_job on an asynchronous job: queue it with a reference
      and, unless a job is already rendering, run the next one. */
  function Submit(d: Dispatcher, j: Job, p: Priority): (r: Dispatcher)
    ensures d.rendering ==> r.running == d.running && r.wired == d.wired
    ensures !d.rendering && d.high == [] && d.low == [] ==>
      r.running == d.running + multiset{j} && r.wired == d.wired + multiset{j} && r.high == [] && r.low == []
    ensures d.rendering ==>
      && r.rendering
      && r.high == (if p == High then d.high + [j] else d.high)
      && r.low == (if p == High then d.low else d.low + [j])
    ensures !d.rendering ==> r.rendering
    ensures Held(r, j) == Held(d, j) + 1
    ensures forall k :: k != j ==> Held(r, k) == Held(d, k)
  {
    var queued := if p == High then d.(high := d.high + [j]) else d.(low := d.low + [j]);
    var held := Ref(queued, j);
    if d.rendering then held else StartNext(held)
  }

  /** The signal emission as written: the job's work ends, then each of the
      `n` handlers connected to it runs job_finished_cb in connection order,
      every run releasing a reference, clearing the flag and running the next
      job. */
  function Callbacks(d: Dispatcher, j: Job, n: nat): (r: Dispatcher)
    ensures Held(r, j) == Held(d, j) - n
    decreases n
  {
    if n == 0 then d
    else Callbacks(StartNext(Unref(d, j).(rendering := false)), j, n - 1)
  }

  /** job_finished_cb as the code wires it: once per connection. */
  function FinishAsWritten(d: Dispatcher, j: Job): (r: Dispatcher)
    ensures j !in d.wired ==> r == d.(running := d.running - multiset{j})
    ensures Held(r, j) == Held(d, j) - d.wired[j]
  {
    Callbacks(d.(running := d.running - multiset{j}), j, d.wired[j])
  }

  /** The evidently intended handler: it answers one dispatch and is gone,
      as if job_finished_cb disconnected itself. A job the scheduler never
      wired is not its business. */
  function FinishCorrected(d: Dispatcher, j: Job): (r: Dispatcher)
    ensures j !in d.wired ==> r == d
    ensures j in d.wired ==> Held(r, j) == Held(d, j) - 1
    ensures forall k :: k != j ==> Held(r, k) == Held(d, k)
    ensures j in d.wired && d.high == [] && d.low == [] ==>
      && !r.rendering && r.running == d.running - multiset{j} && r.wired == d.wired - multiset{j}
    ensures j in d.wired && d.high != [] ==>
      && r.rendering && r.high == d.high[1..] && r.low == d.low
      && r.running == d.running - multiset{j} + multiset{d.high[0]}
      && r.wired == d.wired - multiset{j} + multiset{d.high[0]}
    ensures j in d.wired && d.high == [] && d.low != [] ==>
      && r.rendering && r.high == [] && r.low == d.low[1..]
      && r.running == d.running - multiset{j} + multiset{d.low[0]}
      && r.wired == d.wired - multiset{j} + multiset{d.low[0]}
  {
    if j in d.wired then
      var done := d.(rendering := false, wired := d.wired - multiset{j}, running := d.running - multiset{j});
      StartNext(Unref(done, j))
    else d
  }

  datatype Step = Add(job: Job, priority: Priority) | Done(job: Job)

  /** The counts held agree with the queues and the running jobs: a reference
      per queued entry and per job at work, and never fewer. */
  ghost predicate Counted(d: Dispatcher) {
    forall k :: Held(d, k) == multiset(d.high)[k] + multiset(d.low)[k] + d.running[k]
  }

  /** What the busy flag is for: at most one asynchronous job at work, the
      flag raised exactly while one is, one handler per job at work, and
      nothing left waiting while the flag is down. */
  ghost predicate OneAtATime(d: Dispatcher) {
    && d.wired == d.running
    && |d.running| <= 1
    && (d.rendering <==> |d.running| == 1)
    && (!d.rendering ==> d.high == [] && d.low == [])
    && Counted(d)
  }

  lemma IdleOneAtATime()
    ensures OneAtATime(Idle())
  {
  }

  lemma SubmitOneAtATime(d: Dispatcher, j: Job, p: Priority)
    requires OneAtATime(d)
    ensures OneAtATime(Submit(d, j, p))
  {
    var queued := if p == High then d.(high := d.high + [j]) else d.(low := d.low + [j]);
    var r := Submit(d, j, p);
    forall k
      ensures Held(r, k) == multiset(r.high)[k] + multiset(r.low)[k] + r.running[k]
    {
      if d.rendering {
        assert r == Ref(queued, j);
      } else {
        assert r.high == [] && r.low == [];
        assert r.running == d.running + multiset{j};
      }
    }
  }

  lemma Single(m: multiset<Job>, j: Job)
    requires |m| <= 1 && j in m
    ensures m == multiset{j}
  {
    assert m == (m - multiset{j}) + multiset{j};
    assert |m - multiset{j}| == 0;
  }

  lemma HeadSplit(q: seq<Job>)
    requires q != []
    ensures multiset(q) == multiset{q[0]} + multiset(q[1..])
  {
    assert q == [q[0]] + q[1..];
  }

  /** With nothing at work and no handler connected, running the next job
      restores the one-at-a-time shape. */
  lemma StartNextFromRest(d: Dispatcher)
    requires Counted(d) && !d.rendering
    requires d.running == multiset{} && d.wired == multiset{}
    ensures OneAtATime(StartNext(d))
  {
    if d.high != [] {
      HeadSplit(d.high);
    } else if d.low != [] {
      HeadSplit(d.low);
    }
  }

  lemma FinishCorrectedOneAtATime(d: Dispatcher, j: Job)
    requires OneAtATime(d)
    ensures OneAtATime(FinishCorrected(d, j))
  {
    if j in d.wired {
      Single(d.running, j);
      var done := Unref(d.(rendering := false, wired := multiset{}, running := multiset{}), j);
      assert FinishCorrected(d, j) == StartNext(done);
      StartNextFromRest(done);
    }
  }

  /** One event with the intended handler: a submission or a "finished". */
  function StepCorrected(d: Dispatcher, st: Step): (r: Dispatcher)
    requires OneAtATime(d)
    ensures OneAtATime(r)
  {
    match st
    case Add(j, p) => SubmitOneAtATime(d, j, p); Submit(d, j, p)
    case Done(j) => FinishCorrectedOneAtATime(d, j); FinishCorrected(d, j)
  }

  function StepAsWritten(d: Dispatcher, st: Step): Dispatcher {
    match st
    case Add(j, p) => Submit(d, j, p)
    case Done(j) => FinishAsWritten(d, j)
  }

  /** Any run of the intended scheduler keeps one asynchronous job at work
      at a time, with one handler for it and no reference released twice. */
  function RunCorrected(d: Dispatcher, steps: seq<Step>): (r: Dispatcher)
    requires OneAtATime(d)
    ensures OneAtATime(r)
    decreases |steps|
  {
    if steps == [] then d else RunCorrected(StepCorrected(d, steps[0]), steps[1..])
  }

  function RunAsWritten(d: Dispatcher, steps: seq<Step>): Dispatcher
    decreases |steps|
  {
    if steps == [] then d else RunAsWritten(StepAsWritten(d, steps[0]), steps[1..])
  }

  /** A job that is submitted again after it finished is dispatched a second
      time and so carries two handlers. When it next finishes, the first
      callback starts the waiting job `b` and the second starts `c` while `b`
      is still at work, and the scheduler releases one reference to `a` more
      than it took. The intended behaviour never has two jobs at work. */
  lemma DoubleCallbackStartsTwo()
    ensures var a, b, c := Job(1, Render, true), Job(2, Render, true), Job(3, Render, true);
      var steps := [Add(a, High), Done(a), Add(a, High), Add(b, High), Add(c, High), Done(a)];
      && RunAsWritten(Idle(), steps).running == multiset{b, c}
      && Held(RunAsWritten(Idle(), steps), a) == -1
      && |RunCorrected(Idle(), steps).running| <= 1
  {
    var a, b, c := Job(1, Render, true), Job(2, Render, true), Job(3, Render, true);
    var steps := [Add(a, High), Done(a), Add(a, High), Add(b, High), Add(c, High), Done(a)];
    var d1 := AsWrittenFirstRun(a);
    var d3 := AsWrittenResubmit(d1, a, b, c);
    var w := AsWrittenDoubleCallback(d3, a, b, c);
    var d0 := StepAsWritten(Idle(), Add(a, High));
    var d2 := StepAsWritten(d1, Add(a, High));
    var d2b := StepAsWritten(d2, Add(b, High));
    assert RunAsWritten(Idle(), steps) == RunAsWritten(d0, steps[1..]);
    assert RunAsWritten(d0, steps[1..]) == RunAsWritten(d1, steps[2..]);
    assert RunAsWritten(d1, steps[2..]) == RunAsWritten(d2, steps[3..]);
    assert RunAsWritten(d2, steps[3..]) == RunAsWritten(d2b, steps[4..]);
    assert RunAsWritten(d2b, steps[4..]) == RunAsWritten(d3, steps[5..]);
    assert RunAsWritten(d3, steps[5..]) == w;
  }

  /** `a` is submitted to an idle scheduler, runs and finishes. */
  lemma AsWrittenFirstRun(a: Job) returns (d1: Dispatcher)
    ensures d1 == StepAsWritten(StepAsWritten(Idle(), Add(a, High)), Done(a))
    ensures d1.high == [] && d1.low == [] && !d1.rendering
    ensures d1.wired == multiset{a} && d1.running == multiset{} && Held(d1, a) == 0
  {
    var d0 := StepAsWritten(Idle(), Add(a, High));
    assert d0.wired == multiset{a} && d0.running == multiset{a} && d0.high == [] && d0.low == [];
    d1 := StepAsWritten(d0, Done(a));
  }

  /** `a` is submitted again and runs with a second handler; `b` and `c`
      wait behind it. */
  lemma AsWrittenResubmit(d1: Dispatcher, a: Job, b: Job, c: Job) returns (d3: Dispatcher)
    requires d1.high == [] && d1.low == [] && !d1.rendering
    requires d1.wired == multiset{a} && d1.running == multiset{} && Held(d1, a) == 0
    requires a != b && a != c
    ensures d3 == StepAsWritten(StepAsWritten(StepAsWritten(d1, Add(a, High)), Add(b, High)), Add(c, High))
    ensures d3.high == [b, c] && d3.wired == multiset{a, a} && d3.running == multiset{a}
    ensures Held(d3, a) == 1
  {
    var d2 := StepAsWritten(d1, Add(a, High));
    assert d2.wired == multiset{a, a} && d2.running == multiset{a} && d2.high == [] && d2.rendering;
    d3 := StepAsWritten(StepAsWritten(d2, Add(b, High)), Add(c, High));
  }

  /** `a` finishes with two handlers connected: each callback starts a job,
      and each releases a reference to `a`. */
  lemma AsWrittenDoubleCallback(d3: Dispatcher, a: Job, b: Job, c: Job) returns (w: Dispatcher)
    requires d3.high == [b, c] && d3.wired == multiset{a, a} && d3.running == multiset{a}
    requires Held(d3, a) == 1
    ensures w == StepAsWritten(d3, Done(a))
    ensures w.running == multiset{b, c} && Held(w, a) == -1
  {
    var d := d3.(running := d3.running - multiset{a});
    assert d.running == multiset{};
    assert d3.wired[a] == 2;
    w := TwoCallbacks(d, a);
  }

  /** Two runs of job_finished_cb with two jobs waiting: both start. */
  lemma TwoCallbacks(d: Dispatcher, j: Job) returns (w: Dispatcher)
    requires |d.high| >= 2
    ensures Callbacks(d, j, 2) == w
    ensures w.running == d.running + multiset{d.high[0], d.high[1]}
    ensures Held(w, j) == Held(d, j) - 2
  {
    var e := CallbackStartsHead(d, j, 2);
    w := CallbackStartsHead(e, j, 1);
  }

  /** One run of job_finished_cb, of `n` due, with a job waiting in the high
      queue: that job starts and one reference to `j` goes. */
  lemma CallbackStartsHead(d: Dispatcher, j: Job, n: nat) returns (r: Dispatcher)
    requires d.high != [] && n > 0
    ensures Callbacks(d, j, n) == Callbacks(r, j, n - 1)
    ensures r.high == d.high[1..] && r.running == d.running + multiset{d.high[0]}
    ensures Held(r, j) == Held(d, j) - 1
  {
    r := StartNext(Unref(d, j).(rendering := false));
  }

  /** The job wired in the main model, as a multiset of handlers. */
  function InFlight(s: JobQueue.State): multiset<Job> {
    if s.inFlight.Some? then multiset{s.inFlight.value} else multiset{}
  }

  /** A main-model state and a dispatcher describe the same asynchronous
      path: the same two queues and flag, the in-flight job as the one
      handler and the one job at work, and the same references held. */
  ghost predicate Mirrors(s: JobQueue.State, d: Dispatcher) {
    && d.high == s.queues.asyncHigh && d.low == s.queues.asyncLow
    && d.rendering == s.asyncRendering
    && d.wired == InFlight(s) && d.running == InFlight(s)
    && forall k :: Held(d, k) == s.refs[k] as int
  }

  /** Both models start from the same place: ev_job_queue_init's empty
      queues mirror the idle dispatcher. */
  lemma InitMirrors()
    ensures Mirrors(JobQueue.Init(), Idle())
  {
  }

  /** run_next in the two models: from an idle state with nothing in flight,
      JobQueue.RunNext and StartNext keep the states mirrored. */
  lemma StartMirrors(s: JobQueue.State, d: Dispatcher)
    requires JobQueue.WellPlaced(s.queues) && Mirrors(s, d)
    requires s.inFlight.None?
    ensures Mirrors(JobQueue.RunNext(s), StartNext(d))
  {
    if s.queues.asyncHigh != [] {
      StartHighMirrors(s, d);
    } else if s.queues.asyncLow != [] {
      StartLowMirrors(s, d);
    }
  }

  lemma StartHighMirrors(s: JobQueue.State, d: Dispatcher)
    requires JobQueue.WellPlaced(s.queues) && Mirrors(s, d)
    requires s.inFlight.None? && s.queues.asyncHigh != []
    ensures Mirrors(JobQueue.RunNext(s), StartNext(d))
  {
    var r := JobQueue.RunNext(s);
    assert r.queues.asyncHigh == r.queues.Get(JobQueue.AsyncRenderHigh) == s.queues.asyncHigh[1..];
    assert r.queues.asyncLow == r.queues.Get(JobQueue.AsyncRenderLow) == s.queues.asyncLow;
  }

  lemma StartLowMirrors(s: JobQueue.State, d: Dispatcher)
    requires JobQueue.WellPlaced(s.queues) && Mirrors(s, d)
    requires s.inFlight.None? && s.queues.asyncHigh == [] && s.queues.asyncLow != []
    ensures Mirrors(JobQueue.RunNext(s), StartNext(d))
  {
    var r := JobQueue.RunNext(s);
    assert r.queues.asyncLow == r.queues.Get(JobQueue.AsyncRenderLow) == s.queues.asyncLow[1..];
    assert r.queues.asyncHigh == r.queues.Get(JobQueue.AsyncRenderHigh) == s.queues.asyncHigh;
  }

  /** The main model's completion is the corrected one: JobQueue.JobFinished
      and FinishCorrected take mirrored states to mirrored states. */
  lemma FinishMirrors(s: JobQueue.State, d: Dispatcher, j: Job)
    requires JobQueue.WellPlaced(s.queues) && Mirrors(s, d)
    requires s.inFlight.Some? ==> s.inFlight.value in s.refs
    ensures Mirrors(JobQueue.JobFinished(s, j), FinishCorrected(d, j))
  {
    if s.inFlight == Fifo.Some(j) {
      var idle := s.(refs := s.refs - multiset{j}, asyncRendering := false, inFlight := Fifo.None);
      var done := Unref(d.(rendering := false, wired := multiset{}, running := multiset{}), j);
      assert JobQueue.JobFinished(s, j) == JobQueue.RunNext(idle);
      assert FinishCorrected(d, j) == StartNext(done);
      assert Mirrors(idle, done);
      StartMirrors(idle, done);
    }
  }

  /** The main model's asynchronous submission is Submit: JobQueue.AddJob and
      Submit take mirrored states to mirrored states. */
  lemma SubmitMirrors(s: JobQueue.State, d: Dispatcher, j: Job, p: Priority)
    requires j.async && j.kind == Render
    requires JobQueue.WellPlaced(s.queues) && Mirrors(s, d)
    requires s.asyncRendering <==> s.inFlight.Some?
    ensures Mirrors(JobQueue.AddJob(s, j, p), Submit(d, j, p))
  {
    var s1, d1 := QueuedMirrors(s, d, j, p);
    if s.asyncRendering {
      assert JobQueue.AddJob(s, j, p) == s1 && Submit(d, j, p) == d1;
    } else {
      assert JobQueue.AddJob(s, j, p) == JobQueue.RunNext(s1);
      assert Submit(d, j, p) == StartNext(d1);
      StartMirrors(s1, d1);
    }
  }

  /** The append and reference of a submission, in both models. */
  lemma QueuedMirrors(s: JobQueue.State, d: Dispatcher, j: Job, p: Priority) returns (s1: JobQueue.State, d1: Dispatcher)
    requires j.async && j.kind == Render
    requires JobQueue.WellPlaced(s.queues) && Mirrors(s, d)
    ensures s1 == JobQueue.Enqueue(s, JobQueue.FindQueue(j, p), j)
    ensures d1 == Ref(if p == High then d.(high := d.high + [j]) else d.(low := d.low + [j]), j)
    ensures JobQueue.WellPlaced(s1.queues) && Mirrors(s1, d1) && s1.inFlight == s.inFlight
  {
    s1 := EnqueuedAsync(s, j, p);
    d1 := Ref(if p == High then d.(high := d.high + [j]) else d.(low := d.low + [j]), j);
    forall k ensures Held(d1, k) == s1.refs[k] as int {
    }
  }

  /** The main model's append of an asynchronous render job, read off as the
      two asynchronous queues. */
  lemma EnqueuedAsync(s: JobQueue.State, j: Job, p: Priority) returns (s1: JobQueue.State)
    requires j.async && j.kind == Render && JobQueue.WellPlaced(s.queues)
    ensures s1 == JobQueue.Enqueue(s, JobQueue.FindQueue(j, p), j)
    ensures s1.queues.asyncHigh == if p == High then s.queues.asyncHigh + [j] else s.queues.asyncHigh
    ensures s1.queues.asyncLow == if p == High then s.queues.asyncLow else s.queues.asyncLow + [j]
    ensures s1.refs == s.refs + multiset{j} && s1.inFlight == s.inFlight
    ensures s1.asyncRendering == s.asyncRendering && JobQueue.WellPlaced(s1.queues)
  {
    var id := JobQueue.FindQueue(j, p);
    assert id == if p == High then JobQueue.AsyncRenderHigh else JobQueue.AsyncRenderLow;
    s1 := JobQueue.Enqueue(s, id, j);
    assert s1.queues.asyncHigh == s1.queues.Get(JobQueue.AsyncRenderHigh);
    assert s1.queues.asyncLow == s1.queues.Get(JobQueue.AsyncRenderLow);
  }
}
